=== FILE: README.md ===
# snapsite core in Dafny

A model of the logic at the heart of snapsite. snapsite is a small tool:
a browser client asks a backend to have a language model generate, or
edit, a tiny HTML/CSS/JS web app, then previews that app in the page.
This model covers four pieces of that tool:

- **The region patch engine** of the client (`applyEdits`). An edit of
  region `R` replaces the text between the first `/* R-start */` and the
  first `/* R-end */` of every file with the edit's name. The edits of a
  batch apply one after another (`region_patch.dfy`).
- **The client's state changes** (`client.dfy`):
  - what `handleGenerate` does with the backend's answer: generation mode
    takes the returned files, edit mode applies the returned edits;
  - the editor's `updateFileContent`;
  - `handleRun`.
- **The preview page** `handleRun` assembles (`preview.dfy`). It takes the
  first `index.html`, `style.css` and `app.js`, with names compared in
  lower case. It puts a `<style>` block before the first `</head>` and a
  `<script>` block before the first `</body>`. When those tags are missing
  it prepends the style block and appends the script block instead.
- **The backend's handling of the model's reply** (`json_extraction.dfy`,
  `ollama_client.dfy`):
  - the choice between generation and edit mode;
  - `ExtractJsonFromText`, a two-tier regex search for the JSON object;
  - the final steps of `GenerateAsync`, which set `IsEdit` on every
    response.

Supporting files:
- `results.dfy`: `Option` and `Result`.
- `models.dfy`: the records the client and the backend exchange.
- `text.dfy`: JavaScript's `indexOf`/`includes` and `String.prototype.replace`
  with a string pattern, including the `$`-substitutions of its
  replacement text.

The regex searches are written as the searches the .NET engine performs:
the leftmost start wins, and `[\s\S]*` is greedy. They are then proved
equal to plain reference definitions, for example "from the first `{` to
the last `}`".

Two behaviours of the code are worth knowing:
- The fenced search returns the widest span, which ends at the last `}`
  followed by a closing fence. It does not return the innermost `{...}`.
  `TwoBlocksAreJoined` shows the consequence.
- The client picks edit mode from whether it holds files. It ignores
  whether the response carries files.

The request of `handleGenerate` is awaited while the editor and Run stay
live (only Generate is disabled). So the model splits it in two:
`StartGenerate` runs at the click, and `Settle` runs when the answer
arrives, on the state as it is by then.

## Model

| member | source | states |
|---|---|---|
| Text.IndexOf | frontend/voicecode-frontend/src/App.tsx:33-34 | `indexOf` finds something exactly when the text contains the marker, and what it finds is the first occurrence |
| Text.ExpandWithoutDollar | frontend/voicecode-frontend/src/App.tsx:148-151 | a `replace` template without `$` is inserted verbatim |
| Text.ExpandSingleDollarQuote | frontend/voicecode-frontend/src/App.tsx:161-164 | a template whose only `$` opens one `` $' `` expands to the template with the text after the match in place of the `` $' `` |
| RegionPatch.Splice | frontend/voicecode-frontend/src/App.tsx:33-45 | when either marker is missing the content is returned unchanged |
| RegionPatch.EndTagHasNoNewline | frontend/voicecode-frontend/src/App.tsx:30-31 | for a region name without a newline, the end marker has no newline, is non-empty and is no longer than the start marker |
| RegionPatch.SpliceFindsMarkers | frontend/voicecode-frontend/src/App.tsx:33-45 | whatever the order of the markers, once both are found the spliced text keeps the first start marker where it was and holds the new content and an end marker |
| RegionPatch.SpliceKeepsOutside | frontend/voicecode-frontend/src/App.tsx:41-44 | for ordered markers, the text up to the end of the start marker and the text from the end marker on are kept; the length changes by the new body minus the old one |
| RegionPatch.EndTagAfterSplice | frontend/voicecode-frontend/src/App.tsx:41-44 | for ordered markers, a non-empty end marker without a newline, and new content free of the end marker, the first end marker now sits right after the new content and its newline |
| RegionPatch.SpliceKeepsMarkers | frontend/voicecode-frontend/src/App.tsx:41-45 | for ordered markers, a non-empty end marker without a newline, and new content free of the end marker: after splicing, both markers survive, the region is still ordered, and its body starts where it did and spans the new content plus two newlines |
| RegionPatch.SpliceWellOrdered | frontend/voicecode-frontend/src/App.tsx:41-45 | for ordered markers, a non-empty end marker without a newline, and new content free of the end marker, the old text between the markers is discarded: the region's body becomes exactly newline, new content, newline |
| RegionPatch.SpliceTwice | frontend/voicecode-frontend/src/App.tsx:41-45 | splicing a region twice equals splicing only the second content (last write wins), whether or not the markers are present |
| RegionPatch.ReversedMarkersDuplicate | frontend/voicecode-frontend/src/App.tsx:41-44 | with the end marker before the start marker, the raw slices overlap: both markers stay where they were, the text between them appears twice, the file grows, and splicing again grows it further instead of replacing |
| RegionPatch.ApplyEdit | frontend/voicecode-frontend/src/App.tsx:25-46 | one edit keeps the list's length and names; a file it does not target (other name, or an action other than `replace_region`) is untouched; a targeted file gets the splice of its region |
| RegionPatch.ApplyEdits | frontend/voicecode-frontend/src/App.tsx:21-51 | a batch keeps the list's length and names in order, and a file that no edit targets keeps its content |
| RegionPatch.ApplyEditsAppend | frontend/voicecode-frontend/src/App.tsx:22-48 | a batch applies sequentially: applying `first + second` is applying `first`, then `second` to the result |
| RegionPatch.SkippedEditIsTransparent | frontend/voicecode-frontend/src/App.tsx:36-39 | an edit whose markers are missing from every file it targets changes nothing, and the later edits of the batch still apply as if it were absent |
| RegionPatch.ReplaceTwiceKeepsSecond | frontend/voicecode-frontend/src/App.tsx:24-46 | two replacements of the same region of the same file in a row give the same files as the second alone |
| RegionPatch.RepeatedEditCollapses | frontend/voicecode-frontend/src/App.tsx:24-48 | repeating a replacement is idempotent: a batch opening with the same edit twice equals the batch without the repetition |
| RegionPatch.EditsOfDifferentFilesCommute | frontend/voicecode-frontend/src/App.tsx:26-27 | edits of different files can be applied in either order |
| Client.RequestFor | frontend/voicecode-frontend/src/App.tsx:73-83 | the request is in edit mode exactly when the client holds files, and carries the files exactly then |
| Client.ModesAgree | frontend/voicecode-frontend/src/App.tsx:73-82 | the backend's mode rule, applied to the client's request, gives edit mode exactly when the client holds files |
| Client.NonEmpty | frontend/voicecode-frontend/src/App.tsx:100 | an empty or absent explanation is shown as none; any other is kept |
| Client.Settle | frontend/voicecode-frontend/src/App.tsx:93-119 | the preview is left as it is by then; a failure sets its message (or "Unknown error") and an edit-mode answer without edits sets "No edits returned from backend.", both leaving the files, explanation and open file as they are; a usable answer writes no error, sets the explanation, and takes the response's files (opening the first) in generation mode or the edits applied to the given files in edit mode |
| Client.FinishGenerateAsWritten | frontend/voicecode-frontend/src/App.tsx:105-110 | the end of the request as written: in edit mode the edits are applied to the files captured at the click |
| Client.FinishGenerate | frontend/voicecode-frontend/src/App.tsx:105-110 | the end of the request as intended: in edit mode the edits are applied to the files held when the answer arrives |
| Client.InFlightUpdateIsLost | frontend/voicecode-frontend/src/App.tsx:108-109 | an editor update made while an edit request is in flight, to a file no edit targets, is undone when the answer arrives |
| Client.InFlightUpdateSurvives | frontend/voicecode-frontend/src/App.tsx:108-109 | with the edits applied to the current files, such an update is kept |
| Client.AtomicRequestAgrees | frontend/voicecode-frontend/src/App.tsx:67-120 | when nothing happens while the request is in flight, the written and the intended ends give the same state |
| Client.HandleGenerate | frontend/voicecode-frontend/src/App.tsx:67-120 | with nothing happening while the request is in flight: the preview ends cleared; an error is set exactly when the request failed or an edit-mode answer has no edits, with the failure's message (or "Unknown error") or "No edits returned from backend."; on error the files, explanation and open file are unchanged |
| Client.GenerationTakesResponseFiles | frontend/voicecode-frontend/src/App.tsx:96-104 | in generation mode the files become the response's files, or none, and the first of them is opened; with none, the open file stays |
| Client.EditModeKeepsFileNames | frontend/voicecode-frontend/src/App.tsx:105-114 | once files are held, no answer changes the number, names or order of the files, or the open file |
| Client.EditResponseAppliesEdits | frontend/voicecode-frontend/src/App.tsx:107-110 | in edit mode with edits, the files become `applyEdits(files, edits)` and no error is set |
| Client.EditFlagIsIgnored | frontend/voicecode-frontend/src/App.tsx:15-20 | the client's outcome does not depend on the edit flag the backend sets |
| Client.UpdateFileContent | frontend/voicecode-frontend/src/App.tsx:123-127 | every file with the given name gets the new content; length, names and all other files are unchanged |
| Client.UpdateLastWriteWins | frontend/voicecode-frontend/src/App.tsx:123-127 | of two updates of the same file, the last one wins |
| Client.UpdatesOfDifferentFilesCommute | frontend/voicecode-frontend/src/App.tsx:123-127 | updates of different files commute |
| Client.UpdateWithSameContentIsIdentity | frontend/voicecode-frontend/src/App.tsx:123-127 | writing back the content a file already has changes nothing |
| Client.HandleRun | frontend/voicecode-frontend/src/App.tsx:129-141 | with no files nothing changes; without a usable `index.html` only the error "index.html not found in files." is set; otherwise the page is shown; files, explanation and open file never change |
| Preview.ToLowerMatchesIgnoringCase | frontend/voicecode-frontend/src/App.tsx:132-136 | for a target without capitals, a lower-cased name equals it exactly when the name has the same length and agrees with it letter by letter up to the case of ASCII letters |
| Preview.FindFile | frontend/voicecode-frontend/src/App.tsx:132-136 | `find` gives the first file whose lower-cased name is the target, and nothing exactly when no file has that name |
| Preview.InsertBefore | frontend/voicecode-frontend/src/App.tsx:146-167 | the block is inserted right before the first tag, with the text on both sides kept and the tag following the block; without the tag the fallback is used |
| Preview.BuildPreviewAsWritten | frontend/voicecode-frontend/src/App.tsx:129-168 | no page without files; the not-found error exactly when the first `index.html` is missing or empty |
| Preview.BuildPreview | frontend/voicecode-frontend/src/App.tsx:129-168 | the same error cases; a page is never shorter than the `index.html` it is built from |
| Preview.ReplaceInsertsBefore | frontend/voicecode-frontend/src/App.tsx:147-151 | `replace(tag, block + tag)` without `$` inserts the block right before the first tag |
| Preview.InjectStyleAgrees | frontend/voicecode-frontend/src/App.tsx:146-157 | with no `$` in the stylesheet, the client's style step and the verbatim insertion agree |
| Preview.InjectScriptAgrees | frontend/voicecode-frontend/src/App.tsx:159-168 | with no `$` in the script, the client's script step and the verbatim insertion agree |
| Preview.BuildPreviewAgrees | frontend/voicecode-frontend/src/App.tsx:129-168 | the client's page and the intended page coincide when the stylesheet and script used contain no `$` |
| Preview.DollarQuoteTakesTextAfterBody | frontend/voicecode-frontend/src/App.tsx:160-164 | a `` $' `` in the script is replaced by the page text after the first `</body>` |
| Preview.DollarQuoteInScriptIsLost | frontend/voicecode-frontend/src/App.tsx:159-164 | a page ending with its `</body>`, no stylesheet, and a script holding `` $' ``: the client's page loses the `` $' `` while the intended page keeps it, so the two differ |
| Preview.BodyCloseAfterStyle | frontend/voicecode-frontend/src/App.tsx:146-164 | after the style block goes in before `</head>`, the first `</body>` is the page's own, shifted by the block's length |
| Preview.StandardPageLayout | frontend/voicecode-frontend/src/App.tsx:146-168 | with `</head>` before `</body>`: page up to `</head>`, style block, page up to `</body>`, script block, rest of the page |
| Preview.BarePageLayout | frontend/voicecode-frontend/src/App.tsx:152-167 | with neither tag, and a stylesheet without `</body>`: style block, page, newline, script block |
| Preview.PreviewOfStandardPage | frontend/voicecode-frontend/src/App.tsx:129-168 | the page built from three usual files has the standard layout, and the client's own page equals it when no `$` is involved |
| JsonExtraction.SkipWhiteSpace | backend/VoiceRun/Services/OllamaClient.cs:179 | a greedy `\s*` stops at the first non-whitespace character or the end |
| JsonExtraction.LastFenceClose | backend/VoiceRun/Services/OllamaClient.cs:179 | the greedy body ends at the last `}` that whitespace and a closing fence can follow |
| JsonExtraction.FencedMatchAt | backend/VoiceRun/Services/OllamaClient.cs:179 | a fenced match captures an in-bounds span of at least two characters from a `{` to a `}` |
| JsonExtraction.FirstFencedMatch | backend/VoiceRun/Services/OllamaClient.cs:179-181 | the fenced search takes the leftmost fence at which the pattern matches, and fails only when it matches at none |
| JsonExtraction.LastBrace | backend/VoiceRun/Services/OllamaClient.cs:183 | the last `}` of a range, and none exactly when the range has no `}` |
| JsonExtraction.BraceMatchFrom | backend/VoiceRun/Services/OllamaClient.cs:183-185 | the unfenced search captures an in-bounds span from a `{` to a `}` |
| JsonExtraction.Locate | backend/VoiceRun/Services/OllamaClient.cs:179-185 | whichever search answers, the span runs from a `{` to a `}` |
| JsonExtraction.ExtractJson | backend/VoiceRun/Services/OllamaClient.cs:173-194 | blank text gives null; any result is a piece of the text of at least two characters that starts with `{` and ends with `}` |
| JsonExtraction.BraceMatchIsFirstToLast | backend/VoiceRun/Services/OllamaClient.cs:183-185 | the unfenced search returns exactly the span from the first `{` to the last `}` of the text, when the one precedes the other |
| JsonExtraction.BraceMatchIffPair | backend/VoiceRun/Services/OllamaClient.cs:183-187 | the unfenced search succeeds exactly when some `{` precedes some `}` |
| JsonExtraction.ExtractFailsIffNoBracePair | backend/VoiceRun/Services/OllamaClient.cs:177-187 | extraction gives null exactly when no `{` precedes a `}`; the blank test never changes the outcome |
| JsonExtraction.FencedMatchWins | backend/VoiceRun/Services/OllamaClient.cs:179-181 | when some fenced match exists, the leftmost one is the result, whatever the second search would find |
| JsonExtraction.NoFencedMatchFallsBack | backend/VoiceRun/Services/OllamaClient.cs:180-185 | only when the fenced search fails does the second one answer, with the span from the first `{` to the last `}` |
| JsonExtraction.UnfencedTextTakesFirstToLastBrace | backend/VoiceRun/Services/OllamaClient.cs:179-185 | text without a fence yields the span from the first `{` to the last `}` |
| JsonExtraction.FencedJsonBlockIsExtracted | backend/VoiceRun/Services/OllamaClient.cs:179-181 | for text "before, a ```` ```json ```` block with an object, after" where neither side holds a fence, the result is exactly the object |
| JsonExtraction.TwoBlocksAreJoined | backend/VoiceRun/Services/OllamaClient.cs:179-181 | with two fenced blocks, the greedy body runs from the first object's `{` to the second object's `}`, taking the fences and text between them along |
| OllamaClient.SelectMode | backend/VoiceRun/Services/OllamaClient.cs:19 | edit mode exactly when the flag is set and the current files are present and non-empty |
| OllamaClient.CompleteGeneration | backend/VoiceRun/Services/OllamaClient.cs:161-169 | a chat failure propagates; `JsonNotFound`, with the message "Could not find JSON in model output.", exactly when the reply (null read as empty) has no `{` before a `}`, so always for blank replies; once JSON is found, a deserialized object is returned with `IsEdit` set, and a serializer failure is raised with the serializer's message |
| OllamaClient.Generate | backend/VoiceRun/Services/OllamaClient.cs:161-169 | every response `GenerateAsync` returns is marked as an edit, whatever the mode |
| OllamaClient.GenerationIsMarkedAsEdit | backend/VoiceRun/Services/OllamaClient.cs:161-169 | a generation answered with one fenced object yields that object's response, marked as an edit |

## Left out

- The HTTP call to the model server and the prompt texts of `GenerateAsync`
  (OllamaClient.cs:21-159): network I/O and fixed text. The chat call is a
  parameter of `OllamaClient.Generate` that returns the reply content or
  the failure message.
- `JsonSerializer.Deserialize` is a foreign library, so it is a parameter.
  Its null result is not modelled. Only a JSON `null` literal deserializes
  to null, and the extracted text always starts with `{`. So the
  `IsEdit = true` before the null check (OllamaClient.cs:165-167) never
  meets a null.
- The `catch`/`throw` in `ExtractJsonFromText` rethrows unchanged, so it
  has no model. Regex timeouts are not modelled.
- React rendering, hooks, the loading flag, `fetch`, the status check and
  response parsing are left out. The outcome of a request is the parameter
  `FetchOutcome`, and an error's message text is taken as given.
  `Blob`/`URL.createObjectURL` are left out too: the preview is the page
  text.
- The response is taken to have the declared shape. A JSON body whose
  `edits` is present but not an array (which the client reports as "No
  edits returned from backend.") cannot be expressed in the typed record.
- Text is a sequence of characters, while JavaScript and .NET index UTF-16
  code units. Offsets from `indexOf`, `slice` and `length` would differ on
  characters outside the Basic Multilingual Plane. Found occurrences and
  result texts do not. Every region marker begins with `/* ` and ends with
  ` */` (the region name in between comes from the model and may hold any
  character). `</head>`, `</body>`, the fences and the braces are ASCII.
  A well-formed UTF-16 needle whose first and last code units are ASCII
  matches only whole characters of well-formed text. So every search finds
  the same occurrence, and only the numeric offsets would differ. Lone
  surrogates cannot be represented in a Dafny `string` and are not
  modelled.
- `console.warn` for missing markers has no effect on state.
- The blank-prompt rejection of CodeController.cs (lines 22-23) and the
  bootstrap in Program.cs are routing code outside this core.
- Preview.ToLower: lower-cases ASCII letters only. The targets `index.html`,
  `style.css` and `app.js` are ASCII. Their only non-ASCII uppercase
  relative is U+212A KELVIN SIGN, which `toLowerCase` maps to `k`, and no
  target contains `k`. So file lookup is unaffected.
- RegionPatch.EndTagAfterSplice: needs the end marker to be non-empty and
  free of newlines, and the new content to hold no end marker. Otherwise
  the first end marker after the splice can lie inside the new content or
  straddle an inserted newline.
- RegionPatch.SpliceKeepsMarkers: the same conditions as
  RegionPatch.EndTagAfterSplice, for the same reason.
- RegionPatch.SpliceWellOrdered: the same conditions. An edit whose
  content holds its own end marker leaves a body that ends inside the new
  content, not "newline, new content, newline".
- RegionPatch.SpliceTwice: needs the end marker to be non-empty and free
  of newlines, the region usable (markers missing, or start before end),
  and the first content to hold no end marker. Without those conditions
  the second search can land inside the first insertion.
- RegionPatch.ReplaceTwiceKeepsSecond: needs a region name without a
  newline. The markers are built from the name, and a newline in the end
  marker could let it straddle the inserted newlines.
- RegionPatch.RepeatedEditCollapses: the same conditions as
  ReplaceTwiceKeepsSecond, stated for a batch that opens with the
  repetition. `ApplyEditsAppend` carries the result to any position in a
  batch.
- RegionPatch.ReversedMarkersDuplicate: needs the end marker to be no
  longer than the start marker. The tags `StartTag`/`EndTag` always
  satisfy this (see EndTagHasNoNewline).
- Preview.BodyCloseAfterStyle: needs a stylesheet without `</body>`.
  Otherwise the first `</body>` after the style step is the stylesheet's
  own.
- Preview.StandardPageLayout: needs a stylesheet without `</body>`, for the
  same reason. Otherwise the script block goes inside the style block.
- Preview.BarePageLayout: needs a stylesheet without `</body>`.
  Otherwise the script block goes before the stylesheet's own `</body>`,
  inside the style block.
- Preview.PreviewOfStandardPage: the same condition as
  Preview.StandardPageLayout.
- Client.HandleGenerate: takes the request as one step, with nothing
  happening while it is in flight. The interleaved case is covered by
  `Client.Settle` and its two ends `Client.FinishGenerateAsWritten` and
  `Client.FinishGenerate`. Only there does a Run made during the request
  leave a preview, and a Run error survive a usable answer.
- The loading flag and the disabled Generate button are left out. They
  only stop a second request from starting while one is in flight.
- Client.HandleRun: uses the corrected page (see Findings). The client's
  own page is `Preview.BuildPreviewAsWritten`, and the two agree whenever
  no `$` is involved (`Preview.BuildPreviewAgrees`).

## Findings

| source | as written | input that shows it | evidently intended | confidence | as-written member | corrected member |
|---|---|---|---|---|---|---|
| frontend/voicecode-frontend/src/App.tsx:159-164 | the script block is inserted with `String.prototype.replace(string, template)`, and its template text is subject to `$`-substitution (`$$`, `$&`, `` $` ``, `$'`) | `index.html` = `<body></body>` (ending with its first `</body>`), no `style.css`, `app.js` = ``a$'b``: the page gets `a` + (text after `</body>`, empty) + `b`, and the script loses `` $' `` | the script (and likewise the stylesheet, lines 146-151) is inserted verbatim | medium, not executed | Preview.DollarQuoteInScriptIsLost | Preview.BuildPreview |
| frontend/voicecode-frontend/src/App.tsx:105-110 | in edit mode the answer's edits are applied to `files` as captured when Generate was clicked, and the result replaces the file list, although the editor stays live during the request | files `app.js` = `x` and `style.css` = `s`; Generate is clicked; while the request is in flight the user types `y` into `app.js`; the answer's only edit targets `style.css`: afterwards `app.js` is `x` again | the edits apply to the files as they are when the answer arrives (`setFiles(prev => applyEdits(prev, edits))`), so an update to a file no edit targets is kept | medium, not executed | Client.InFlightUpdateIsLost | Client.FinishGenerate |

=== FILE: client.dfy ===
/** The browser client's state changes (`App`): building the request and
    taking in the backend's answer (`handleGenerate`), the editor's
    `updateFileContent`, and running the preview (`handleRun`). The React
    state is one immutable record; the network call is its outcome. */
module Client {
  import opened Results
  import opened Models
  import opened RegionPatch
  import Preview
  import OllamaClient

  /** The part of the component state these handlers touch. `preview` is the
      page the preview frame shows; the client keeps a blob URL made from
      it. */
  datatype UiState = UiState(
    files: seq<FileModel>,
    explain: Option<string>,
    error: Option<string>,
    activeFileName: Option<string>,
    preview: Option<string>)

  /** How the request ended: the parsed response, or the message of the
      error raised on the way (network failure, a non-2xx status, a body
      that is not JSON). */
  datatype FetchOutcome = Received(data: GenerateResponse) | Failed(message: string)

  const NoEditsMessage: string := "No edits returned from backend."
  const UnknownErrorMessage: string := "Unknown error"

  /** The request `handleGenerate` sends: edit mode whenever the client
      already holds files, and the files only in edit mode. */
  function RequestFor(prompt: string, files: seq<FileModel>): (req: GenerateRequest)
    ensures req.prompt == prompt
    ensures req.isEdit <==> |files| > 0
    ensures req.currentFiles.Some? <==> |files| > 0
    ensures req.currentFiles.Some? ==> req.currentFiles.value == files
  {
    var isEdit := |files| > 0;
    GenerateRequest(prompt, isEdit, if isEdit then Some(files) else None)
  }

  /** The backend serves the client's request in the mode the client
      chose: the two mode rules agree. */
  lemma ModesAgree(prompt: string, files: seq<FileModel>)
    ensures OllamaClient.SelectMode(RequestFor(prompt, files)) == OllamaClient.Edit <==> |files| > 0
  {
  }

  /** `s || null` for a nullable string: the empty string becomes null. */
  function NonEmpty(s: Option<string>): (r: Option<string>)
    ensures r.Some? <==> s.Some? && s.value != ""
    ensures r.Some? ==> r == s
  {
    match s
    case Some(v) => if v == "" then None else s
    case None => None
  }

  /** What `handleGenerate` does before the request goes out: the error and
      the preview are cleared, and nothing else changes. */
  function StartGenerate(st: UiState): (r: UiState)
    ensures r.error.None? && r.preview.None?
    ensures r.files == st.files && r.explain == st.explain && r.activeFileName == st.activeFileName
  {
    st.(error := None, preview := None)
  }

  /** The answer is usable: the request went through and, in edit mode, it
      carries edits. */
  predicate Answered(isEdit: bool, outcome: FetchOutcome) {
    outcome.Received? && (!isEdit || outcome.data.edits.Some?)
  }

  /** The state when the request ends, given the state `now` at that moment
      (the editor and Run stay live while the request is in flight). The
      mode is the one the request was sent in, and edit mode applies the
      edits to `base`. Only the files, explanation, open file and error are
      written; a usable answer writes no error. */
  function Settle(isEdit: bool, base: seq<FileModel>, now: UiState, outcome: FetchOutcome): (r: UiState)
    ensures r.preview == now.preview
    ensures outcome.Failed? ==> r.error == Some(if outcome.message == "" then UnknownErrorMessage else outcome.message)
    ensures outcome.Received? && isEdit && outcome.data.edits.None? ==> r.error == Some(NoEditsMessage)
    ensures !Answered(isEdit, outcome) ==> r.files == now.files && r.explain == now.explain && r.activeFileName == now.activeFileName
    ensures Answered(isEdit, outcome) ==> r.error == now.error && r.explain == NonEmpty(outcome.data.explain)
    ensures Answered(isEdit, outcome) && isEdit ==>
              r.files == ApplyEdits(base, outcome.data.edits.value) && r.activeFileName == now.activeFileName
    ensures Answered(isEdit, outcome) && !isEdit ==>
              && r.files == outcome.data.files.GetOr([])
              && (|r.files| > 0 ==> r.activeFileName == Some(r.files[0].name))
              && (|r.files| == 0 ==> r.activeFileName == now.activeFileName)
  {
    match outcome
    case Failed(m) => now.(error := Some(if m == "" then UnknownErrorMessage else m))
    case Received(data) =>
      if !isEdit then
        var newFiles := data.files.GetOr([]);
        now.(
          files := newFiles,
          explain := NonEmpty(data.explain),
          activeFileName := if |newFiles| > 0 then Some(newFiles[0].name) else now.activeFileName)
      else
        match data.edits
        case Some(edits) => now.(files := ApplyEdits(base, edits), explain := NonEmpty(data.explain))
        case None => now.(error := Some(NoEditsMessage))
  }

  /** The end of `handleGenerate` as the client writes it: the mode and the
      files the edits go to are the ones captured when Generate was
      clicked (`clicked`), whatever the editor did meanwhile. */
  function FinishGenerateAsWritten(clicked: seq<FileModel>, now: UiState, outcome: FetchOutcome): (r: UiState)
    ensures Answered(|clicked| > 0, outcome) && |clicked| > 0 ==> r.files == ApplyEdits(clicked, outcome.data.edits.value)
  {
    Settle(|clicked| > 0, clicked, now, outcome)
  }

  /** The end of `handleGenerate` as evidently intended: the edits go to the
      files as they are when the answer arrives. */
  function FinishGenerate(clicked: seq<FileModel>, now: UiState, outcome: FetchOutcome): (r: UiState)
    ensures Answered(|clicked| > 0, outcome) && |clicked| > 0 ==> r.files == ApplyEdits(now.files, outcome.data.edits.value)
  {
    Settle(|clicked| > 0, now.files, now, outcome)
  }

  /** The written version drops an editor update made while an edit request
      is in flight: a file the edits do not target is put back to its
      content at the click. */
  lemma InFlightUpdateIsLost(clicked: seq<FileModel>, now: UiState, data: GenerateResponse, name: string, content: string, i: nat)
    requires data.edits.Some?
    requires forall k :: 0 <= k < |data.edits.value| ==> !Targets(data.edits.value[k], name)
    requires now.files == UpdateFileContent(clicked, name, content)
    requires i < |clicked| && clicked[i].name == name && clicked[i].content != content
    ensures now.files[i].content == content
    ensures FinishGenerateAsWritten(clicked, now, Received(data)).files[i] == clicked[i]
    ensures FinishGenerateAsWritten(clicked, now, Received(data)).files[i].content != content
  {
    assert Answered(|clicked| > 0, Received(data));
  }

  /** The intended version keeps such an update. */
  lemma InFlightUpdateSurvives(clicked: seq<FileModel>, now: UiState, data: GenerateResponse, name: string, content: string, i: nat)
    requires data.edits.Some?
    requires forall k :: 0 <= k < |data.edits.value| ==> !Targets(data.edits.value[k], name)
    requires now.files == UpdateFileContent(clicked, name, content)
    requires i < |clicked| && clicked[i].name == name
    ensures FinishGenerate(clicked, now, Received(data)).files[i].name == name
    ensures FinishGenerate(clicked, now, Received(data)).files[i].content == content
  {
    assert Answered(|clicked| > 0, Received(data));
  }

  /** With nothing happening while the request is in flight, the written and
      the intended version agree. */
  lemma AtomicRequestAgrees(st: UiState, outcome: FetchOutcome)
    ensures FinishGenerateAsWritten(st.files, StartGenerate(st), outcome) == FinishGenerate(st.files, StartGenerate(st), outcome)
  {
  }

  /** `handleGenerate` with nothing happening while the request is in
      flight. The mode is the one the request was built in: edit mode when
      files were held. */
  function HandleGenerate(st: UiState, outcome: FetchOutcome): (r: UiState)
    ensures r.preview.None?
    ensures r.error.Some? <==> outcome.Failed? || (|st.files| > 0 && outcome.data.edits.None?)
    ensures r.error.Some? ==> r.files == st.files && r.explain == st.explain && r.activeFileName == st.activeFileName
    ensures outcome.Failed? ==> r.error == Some(if outcome.message == "" then UnknownErrorMessage else outcome.message)
    ensures outcome.Received? && |st.files| > 0 && outcome.data.edits.None? ==> r.error == Some(NoEditsMessage)
    ensures r.error.None? ==> r.explain == NonEmpty(outcome.data.explain)
  {
    FinishGenerate(st.files, StartGenerate(st), outcome)
  }

  /** A generation takes the response's files as they are (none when the
      response has none) and opens the first of them. */
  lemma GenerationTakesResponseFiles(st: UiState, data: GenerateResponse)
    requires |st.files| == 0
    ensures var r := HandleGenerate(st, Received(data));
            && r.error.None?
            && r.files == data.files.GetOr([])
            && (|r.files| > 0 ==> r.activeFileName == Some(r.files[0].name))
            && (|r.files| == 0 ==> r.activeFileName == st.activeFileName)
  {
  }

  /** Once files are held, no answer adds, removes, renames or reorders
      them: an edit response only rewrites regions, and anything else leaves
      the files as they were. */
  lemma EditModeKeepsFileNames(st: UiState, outcome: FetchOutcome)
    requires |st.files| > 0
    ensures var r := HandleGenerate(st, outcome);
            && |r.files| == |st.files|
            && (forall i :: 0 <= i < |st.files| ==> r.files[i].name == st.files[i].name)
            && r.activeFileName == st.activeFileName
  {
  }

  /** An edit response's edits are applied to the files held, in order. */
  lemma EditResponseAppliesEdits(st: UiState, data: GenerateResponse, edits: seq<EditModel>)
    requires |st.files| > 0 && data.edits == Some(edits)
    ensures HandleGenerate(st, Received(data)).files == ApplyEdits(st.files, edits)
    ensures HandleGenerate(st, Received(data)).error.None?
  {
  }

  /** The client never reads the edit flag the backend sets, so the
      backend's marking every response as an edit changes nothing here. */
  lemma EditFlagIsIgnored(st: UiState, data: GenerateResponse, flag: bool)
    ensures HandleGenerate(st, Received(data.(isEdit := flag))) == HandleGenerate(st, Received(data))
  {
  }

  /** `updateFileContent`: every file with exactly this name gets the new
      content; the list, the names and every other file stay as they
      were. */
  function UpdateFileContent(files: seq<FileModel>, name: string, content: string): (r: seq<FileModel>)
    ensures |r| == |files|
    ensures forall i :: 0 <= i < |files| ==> r[i].name == files[i].name
    ensures forall i :: 0 <= i < |files| && files[i].name != name ==> r[i] == files[i]
    ensures forall i :: 0 <= i < |files| && files[i].name == name ==> r[i].content == content
  {
    seq(|files|, i requires 0 <= i < |files| =>
      if files[i].name == name then files[i].(content := content) else files[i])
  }

  /** The last of two updates of the same file wins. */
  lemma UpdateLastWriteWins(files: seq<FileModel>, name: string, first: string, second: string)
    ensures UpdateFileContent(UpdateFileContent(files, name, first), name, second)
         == UpdateFileContent(files, name, second)
  {
  }

  /** Updates of different files do not interfere. */
  lemma UpdatesOfDifferentFilesCommute(files: seq<FileModel>, n1: string, c1: string, n2: string, c2: string)
    requires n1 != n2
    ensures UpdateFileContent(UpdateFileContent(files, n1, c1), n2, c2)
         == UpdateFileContent(UpdateFileContent(files, n2, c2), n1, c1)
  {
  }

  /** Typing back the content a file already has changes nothing. */
  lemma UpdateWithSameContentIsIdentity(files: seq<FileModel>, name: string, content: string)
    requires forall i :: 0 <= i < |files| && files[i].name == name ==> files[i].content == content
    ensures UpdateFileContent(files, name, content) == files
  {
  }

  /** The state after `handleRun`: nothing without files; the error message
      when there is no usable `index.html`; otherwise the assembled page is
      shown. A run never touches the files or clears an earlier error. */
  function HandleRun(st: UiState): (r: UiState)
    ensures r.files == st.files && r.explain == st.explain && r.activeFileName == st.activeFileName
    ensures |st.files| == 0 ==> r == st
    ensures r.preview != st.preview ==> Preview.BuildPreview(st.files).Success?
    ensures Preview.BuildPreview(st.files).Success? ==> r.preview == Some(Preview.BuildPreview(st.files).value) && r.error == st.error
    ensures Preview.BuildPreview(st.files) == Failure(Preview.IndexHtmlNotFound) ==>
              r == st.(error := Some(Preview.IndexHtmlNotFoundMessage))
  {
    match Preview.BuildPreview(st.files)
    case Failure(e) =>
      if e.NoFiles? then st else st.(error := Some(Preview.IndexHtmlNotFoundMessage))
    case Success(page) => st.(preview := Some(page))
  }
}

=== FILE: json_extraction.dfy ===
/** The backend's payload extraction (`ExtractJsonFromText`): the JSON
    object is taken from the first fenced block the pattern
    ```` ```(?:json)?\s*(\{[\s\S]*\})\s*``` ```` matches, or failing that
    from the pattern `(\{[\s\S]*\})`. Both are written here as the searches
    the .NET regex engine performs for them (leftmost start, greedy body),
    not as a regex engine. */
module JsonExtraction {
  import opened Results
  import opened Text

  /** `char.IsWhiteSpace`, which is also the set `\s` matches: the
      characters of the Unicode categories Zs, Zl and Zp, the controls
      U+0009 to U+000D, and U+0085. */
  predicate IsWhiteSpace(c: char) {
    || '\t' <= c <= '\r'
    || c == ' '
    || c == '\U{0085}'
    || c == '\U{00A0}'
    || c == '\U{1680}'
    || '\U{2000}' <= c <= '\U{200A}'
    || c == '\U{2028}'
    || c == '\U{2029}'
    || c == '\U{202F}'
    || c == '\U{205F}'
    || c == '\U{3000}'
  }

  /** `string.IsNullOrWhiteSpace` for a non-null string. */
  predicate IsBlank(s: string) {
    forall i | 0 <= i < |s| :: IsWhiteSpace(s[i])
  }

  /** A half-open range `[start, end)` of the text. */
  datatype Span = Span(start: nat, end: nat)

  /** Where a greedy `\s*` starting at `i` stops. */
  function SkipWhiteSpace(s: string, i: nat): (j: nat)
    requires i <= |s|
    ensures i <= j <= |s|
    ensures forall k :: i <= k < j ==> IsWhiteSpace(s[k])
    ensures j == |s| || !IsWhiteSpace(s[j])
    decreases |s| - i
  {
    if i < |s| && IsWhiteSpace(s[i]) then SkipWhiteSpace(s, i + 1) else i
  }

  const Fence: string := "```"
  const JsonTag: string := "json"

  /** Where the object must begin for a fence at `k`: after the fence, an
      optional `json` and all whitespace. Taking `json` whenever it is there
      loses nothing: without it the object would have to begin at `j`. */
  function PayloadStart(s: string, k: nat): nat
    requires OccursAt(s, Fence, k)
  {
    var afterFence := k + |Fence|;
    if OccursAt(s, JsonTag, afterFence) then SkipWhiteSpace(s, afterFence + |JsonTag|)
    else SkipWhiteSpace(s, afterFence)
  }

  /** A `}` at `q` that `\s*` and a closing fence can follow. */
  predicate ClosesFence(s: string, q: nat) {
    q < |s| && s[q] == '}' && OccursAt(s, Fence, SkipWhiteSpace(s, q + 1))
  }

  /** The greedy `[\s\S]*\}\s*```` part: the last `}` in `[lo, hi)` that
      closes a fence. */
  function LastFenceClose(s: string, lo: nat, hi: nat): (r: Option<nat>)
    requires hi <= |s|
    ensures r.Some? ==> lo <= r.value < hi && ClosesFence(s, r.value)
    ensures r.Some? ==> forall q :: r.value < q < hi ==> !ClosesFence(s, q)
    ensures r.None? ==> forall q :: lo <= q < hi ==> !ClosesFence(s, q)
    decreases hi
  {
    if hi <= lo then None
    else if ClosesFence(s, hi - 1) then Some(hi - 1)
    else LastFenceClose(s, lo, hi - 1)
  }

  /** The captured group of a fenced match starting at `k`, if the match
      succeeds there. */
  function FencedMatchAt(s: string, k: nat): (r: Option<Span>)
    requires OccursAt(s, Fence, k)
    ensures r.Some? ==> r.value.start + 2 <= r.value.end <= |s|
    ensures r.Some? ==> s[r.value.start] == '{' && s[r.value.end - 1] == '}'
  {
    var p := PayloadStart(s, k);
    if p < |s| && s[p] == '{' then
      match LastFenceClose(s, p + 1, |s|)
      case Some(q) => Some(Span(p, q + 1))
      case None => None
    else None
  }

  /** A fenced match starts at `k`. */
  predicate FencedAt(s: string, k: nat) {
    OccursAt(s, Fence, k) && FencedMatchAt(s, k).Some?
  }

  /** Where the leftmost fenced match at or after `from` starts. */
  function FirstFencedMatch(s: string, from: nat): (r: Option<nat>)
    requires from <= |s|
    ensures r.Some? ==> from <= r.value && FencedAt(s, r.value)
    ensures r.Some? ==> forall k :: from <= k < r.value ==> !FencedAt(s, k)
    ensures r.None? ==> forall k :: from <= k ==> !FencedAt(s, k)
    decreases |s| - from
  {
    if from + |Fence| > |s| then None
    else if FencedAt(s, from) then Some(from)
    else FirstFencedMatch(s, from + 1)
  }

  /** The last `}` in `[lo, hi)`. */
  function LastBrace(s: string, lo: nat, hi: nat): (r: Option<nat>)
    requires hi <= |s|
    ensures r.Some? ==> lo <= r.value < hi && s[r.value] == '}'
    ensures r.Some? ==> forall q :: r.value < q < hi ==> s[q] != '}'
    ensures r.None? <==> forall q :: lo <= q < hi ==> s[q] != '}'
    decreases hi
  {
    if hi <= lo then None
    else if s[hi - 1] == '}' then Some(hi - 1)
    else LastBrace(s, lo, hi - 1)
  }

  /** The leftmost match of `(\{[\s\S]*\})` starting at or after `from`: a
      `{` with a later `}`, up to the last `}`. */
  function BraceMatchFrom(s: string, from: nat): (r: Option<Span>)
    requires from <= |s|
    ensures r.Some? ==> from <= r.value.start && r.value.start + 2 <= r.value.end <= |s|
    ensures r.Some? ==> s[r.value.start] == '{' && s[r.value.end - 1] == '}'
    decreases |s| - from
  {
    if from == |s| then None
    else if s[from] == '{' && LastBrace(s, from + 1, |s|).Some? then
      Some(Span(from, LastBrace(s, from + 1, |s|).value + 1))
    else BraceMatchFrom(s, from + 1)
  }

  /** The span the two searches pick: the fenced one first. */
  function Locate(s: string): (r: Option<Span>)
    ensures r.Some? ==> r.value.start + 2 <= r.value.end <= |s|
    ensures r.Some? ==> s[r.value.start] == '{' && s[r.value.end - 1] == '}'
  {
    match FirstFencedMatch(s, 0)
    case Some(k) => FencedMatchAt(s, k)
    case None => BraceMatchFrom(s, 0)
  }

  /** `ExtractJsonFromText`: nothing for blank text, otherwise the located
      object. Any result is a piece of the text that starts with `{` and
      ends with `}`. */
  function ExtractJson(text: string): (r: Option<string>)
    ensures IsBlank(text) ==> r.None?
    ensures r.Some? ==> |r.value| >= 2 && r.value[0] == '{' && r.value[|r.value| - 1] == '}'
    ensures r.Some? ==> Contains(text, r.value)
  {
    if IsBlank(text) then None
    else match Locate(text)
      case None => None
      case Some(sp) =>
        SliceIsContained(text, sp.start, sp.end);
        Some(text[sp.start..sp.end])
  }

  /** Some `{` at or after `from` comes before some `}`. */
  ghost predicate HasBracePair(s: string, from: nat) {
    exists i, j :: from <= i < j < |s| && s[i] == '{' && s[j] == '}'
  }

  /** The first `{` at or after `from`. */
  function FirstOpenBrace(s: string, from: nat): (r: Option<nat>)
    requires from <= |s|
    ensures r.Some? ==> from <= r.value < |s| && s[r.value] == '{'
    ensures r.Some? ==> forall i :: from <= i < r.value ==> s[i] != '{'
    ensures r.None? <==> forall i :: from <= i < |s| ==> s[i] != '{'
    decreases |s| - from
  {
    if from == |s| then None
    else if s[from] == '{' then Some(from)
    else FirstOpenBrace(s, from + 1)
  }

  /** A reference for the second search: from the first `{` at or after
      `from` to the last `}` of the text, when the one comes before the
      other. */
  function FirstToLastBrace(s: string, from: nat): Option<Span>
    requires from <= |s|
  {
    match FirstOpenBrace(s, from)
    case None => None
    case Some(i) =>
      match LastBrace(s, 0, |s|)
      case None => None
      case Some(q) => if i < q then Some(Span(i, q + 1)) else None
  }

  /** The last `}` of a range is also the last of any wider range that
      ends at the same place. */
  lemma LastBraceWiden(s: string, lo: nat, lo': nat, hi: nat)
    requires lo' <= lo && hi <= |s| && LastBrace(s, lo, hi).Some?
    ensures LastBrace(s, lo', hi) == LastBrace(s, lo, hi)
  {
    var q := LastBrace(s, lo, hi).value;
    assert lo' <= q < hi && s[q] == '}';
  }

  /** The search for `(\{[\s\S]*\})` finds exactly the span from the
      first `{` to the last `}`. */
  lemma {:induction false} BraceMatchIsFirstToLast(s: string, from: nat)
    requires from <= |s|
    ensures BraceMatchFrom(s, from) == FirstToLastBrace(s, from)
    decreases |s| - from
  {
    if from == |s| {
    } else if s[from] == '{' && LastBrace(s, from + 1, |s|).Some? {
      LastBraceWiden(s, from + 1, 0, |s|);
    } else if s[from] == '{' {
      BraceMatchIsFirstToLast(s, from + 1);
      match LastBrace(s, 0, |s|)
      case None =>
      case Some(q) =>
        assert q <= from;
        match FirstOpenBrace(s, from + 1)
        case None =>
        case Some(i) => assert from < i;
    } else {
      BraceMatchIsFirstToLast(s, from + 1);
      assert FirstOpenBrace(s, from) == FirstOpenBrace(s, from + 1);
    }
  }

  /** The second search succeeds exactly when some `{` precedes some `}`. */
  lemma BraceMatchIffPair(s: string)
    ensures BraceMatchFrom(s, 0).Some? <==> HasBracePair(s, 0)
  {
    BraceMatchIsFirstToLast(s, 0);
    if HasBracePair(s, 0) {
      var i, j :| 0 <= i < j < |s| && s[i] == '{' && s[j] == '}';
      assert FirstOpenBrace(s, 0).Some? && FirstOpenBrace(s, 0).value <= i;
      assert LastBrace(s, 0, |s|).Some? && j <= LastBrace(s, 0, |s|).value;
    }
    if BraceMatchFrom(s, 0).Some? {
      var sp := BraceMatchFrom(s, 0).value;
      assert s[sp.start] == '{' && s[sp.end - 1] == '}';
    }
  }

  /** Blank text holds no `{`. */
  lemma BlankHasNoBracePair(s: string)
    requires IsBlank(s)
    ensures !HasBracePair(s, 0)
  {
  }

  /** A fenced match also holds a `{` before a `}`. */
  lemma FencedMatchHasBracePair(s: string, k: nat)
    requires FencedAt(s, k)
    ensures HasBracePair(s, 0)
  {
    var sp := FencedMatchAt(s, k).value;
    assert s[sp.start] == '{' && s[sp.end - 1] == '}';
  }

  /** `ExtractJsonFromText` gives null exactly when no `{` in the text comes
      before a `}`; the blank-text test never changes the outcome. */
  lemma ExtractFailsIffNoBracePair(text: string)
    ensures ExtractJson(text).None? <==> !HasBracePair(text, 0)
  {
    BraceMatchIffPair(text);
    if IsBlank(text) {
      BlankHasNoBracePair(text);
    } else {
      match FirstFencedMatch(text, 0)
      case Some(k) => FencedMatchHasBracePair(text, k);
      case None =>
    }
  }

  /** The fenced search takes priority: when a fenced match exists, the
      leftmost one is the result, whatever the second search would find. */
  lemma FencedMatchWins(text: string, k: nat)
    requires FencedAt(text, k)
    requires forall j: nat :: j < k ==> !FencedAt(text, j)
    ensures ExtractJson(text).Some?
    ensures var sp := FencedMatchAt(text, k).value;
            ExtractJson(text) == Some(text[sp.start..sp.end])
  {
    FirstFencedMatchIs(text, 0, k);
    var sp := FencedMatchAt(text, k).value;
    assert !IsBlank(text) by {
      assert text[sp.start] == '{' && !IsWhiteSpace(text[sp.start]);
    }
  }

  /** Only when the fenced search fails does the second one answer: the
      result then runs from the first `{` to the last `}`. */
  lemma NoFencedMatchFallsBack(text: string)
    requires forall k: nat :: !FencedAt(text, k)
    ensures ExtractJson(text) ==
      match FirstToLastBrace(text, 0)
      case None => None
      case Some(sp) => Some(text[sp.start..sp.end])
  {
    assert FirstFencedMatch(text, 0).None?;
    BraceMatchIsFirstToLast(text, 0);
    if IsBlank(text) {
      BlankHasNoBracePair(text);
      BraceMatchIffPair(text);
    }
  }

  /** Text without a fence goes straight to the second search. */
  lemma UnfencedTextTakesFirstToLastBrace(text: string)
    requires !Contains(text, Fence)
    ensures ExtractJson(text) ==
      match FirstToLastBrace(text, 0)
      case None => None
      case Some(sp) => Some(text[sp.start..sp.end])
  {
    NoFencedMatchFallsBack(text);
  }

  /** The opening of a ```` ```json ```` block and its closing fence. */
  const JsonFenceOpen: string := "```json\n"
  const JsonFenceClose: string := "\n```"

  /** The pieces of a text holding one ```` ```json ```` block. */
  predicate IsFencedLayout(s: string, before: string, json: string, after: string) {
    s == before + JsonFenceOpen + json + JsonFenceClose + after
  }

  lemma FencedLayoutSlices(s: string, before: string, json: string, after: string)
    requires IsFencedLayout(s, before, json, after)
    ensures |s| == |before| + 12 + |json| + |after|
    ensures s[..|before|] == before
    ensures s[|before|..|before| + 8] == JsonFenceOpen
    ensures s[|before| + 8..|before| + 8 + |json|] == json
    ensures s[|before| + 8 + |json|..|before| + 12 + |json|] == JsonFenceClose
    ensures s[|before| + 12 + |json|..] == after
  {
  }

  lemma SliceOfSlice(s: string, i: nat, j: nat, k: nat, l: nat)
    requires i <= j <= |s| && k <= l <= j - i
    ensures s[i..j][k..l] == s[i + k..i + l]
  {
    assert |s[i..j][k..l]| == l - k == |s[i + k..i + l]|;
    forall x | 0 <= x < l - k
      ensures s[i..j][k..l][x] == s[i + k..i + l][x]
    {
    }
  }

  /** A fenced match with none before it is the one `FirstFencedMatch`
      finds. */
  lemma {:induction false} FirstFencedMatchIs(s: string, from: nat, k: nat)
    requires from <= k && k + |Fence| <= |s| && FencedAt(s, k)
    requires forall k': nat :: from <= k' < k ==> !FencedAt(s, k')
    ensures FirstFencedMatch(s, from) == Some(k)
    decreases k - from
  {
    if from < k {
      assert !FencedAt(s, from);
      FirstFencedMatchIs(s, from + 1, k);
    }
  }

  /** A fence followed by `json`, a line break and `{` is where a match can
      start, and its object begins at that `{`. */
  lemma FencedBlockOpens(s: string, a: nat)
    requires a + 8 < |s| && s[a..a + 8] == JsonFenceOpen && s[a + 8] == '{'
    ensures OccursAt(s, Fence, a)
    ensures PayloadStart(s, a) == a + 8
  {
    assert JsonFenceOpen[..3] == Fence && JsonFenceOpen[3..7] == JsonTag && JsonFenceOpen[7] == '\n';
    SliceOfSlice(s, a, a + 8, 0, 3);
    SliceOfSlice(s, a, a + 8, 3, 7);
    assert OccursAt(s, JsonTag, a + 3);
    assert s[a + 7] == '\n';
    assert SkipWhiteSpace(s, a + 8) == a + 8;
    assert SkipWhiteSpace(s, a + 7) == a + 8;
  }

  /** A `}` followed by a line break and a fence closes the fence. */
  lemma FencedBlockEndCloses(s: string, e: nat)
    requires 0 < e && e + 4 <= |s| && s[e - 1] == '}' && s[e..e + 4] == JsonFenceClose
    ensures ClosesFence(s, e - 1)
  {
    assert s[e] == s[e..e + 4][0] == '\n';
    assert s[e + 1..e + 4] == s[e..e + 4][1..];
    assert SkipWhiteSpace(s, e) == e + 1;
  }

  /** Past a closing line break and fence with no fence after them, no `}`
      closes a fence. */
  lemma NoFenceCloseAfterBlock(s: string, e: nat, q: nat)
    requires e + 4 <= |s| && s[e..e + 4] == JsonFenceClose && !Contains(s[e + 4..], Fence)
    requires e <= q < |s|
    ensures !ClosesFence(s, q)
  {
    if q < e + 4 {
      assert s[q] == s[e..e + 4][q - e];
    } else if s[q] == '}' {
      var j := SkipWhiteSpace(s, q + 1);
      if OccursAt(s, Fence, j) {
        var m := j - (e + 4);
        assert s[j..j + 3] == s[e + 4..][m..m + 3];
        assert OccursAt(s[e + 4..], Fence, m);
      }
    }
  }

  /** A closing `}` with none after it is the one `LastFenceClose` finds. */
  lemma LastFenceCloseIs(s: string, lo: nat, hi: nat, q: nat)
    requires lo <= q < hi <= |s| && ClosesFence(s, q)
    requires forall q' :: q < q' < hi ==> !ClosesFence(s, q')
    ensures LastFenceClose(s, lo, hi) == Some(q)
  {
  }

  /** The `}` before the closing line break and fence is the last one a
      closing fence follows. */
  lemma FencedBlockCloses(s: string, lo: nat, e: nat)
    requires lo < e && e + 4 <= |s| && s[e - 1] == '}' && s[e..e + 4] == JsonFenceClose
    requires !Contains(s[e + 4..], Fence)
    ensures LastFenceClose(s, lo, |s|) == Some(e - 1)
  {
    FencedBlockEndCloses(s, e);
    forall q: nat | e - 1 < q < |s|
      ensures !ClosesFence(s, q)
    {
      NoFenceCloseAfterBlock(s, e, q);
    }
    LastFenceCloseIs(s, lo, |s|, e - 1);
  }

  /** No fence before a ```` ```json ```` opening starts a match when the
      text before it holds no fence: one that runs into the opening's own
      fence is followed by a backtick. */
  lemma NoFencedMatchBeforeBlock(s: string, a: nat, k: nat)
    requires a + 8 <= |s| && s[a..a + 8] == JsonFenceOpen && !Contains(s[..a], Fence)
    requires k < a
    ensures !FencedAt(s, k)
  {
    if OccursAt(s, Fence, k) {
      if k + 3 <= a {
        assert s[k..k + 3] == s[..a][k..k + 3];
        assert OccursAt(s[..a], Fence, k);
      } else {
        assert s[k + 3] == s[a..a + 8][k + 3 - a] == '`';
        assert !OccursAt(s, JsonTag, k + 3);
        assert PayloadStart(s, k) == k + 3;
      }
    }
  }

  /** A ```` ```json ```` opening, a `{`, and later a `}` with a closing
      line break and fence, with no fence before the opening or after the
      closing: the object located is the one between them. */
  lemma FencedBlockIsLocated(s: string, a: nat, e: nat)
    requires a + 9 < e && e + 4 <= |s|
    requires s[a..a + 8] == JsonFenceOpen && s[a + 8] == '{'
    requires s[e - 1] == '}' && s[e..e + 4] == JsonFenceClose
    requires !Contains(s[..a], Fence) && !Contains(s[e + 4..], Fence)
    ensures Locate(s) == Some(Span(a + 8, e))
  {
    assert OccursAt(s, Fence, a) && FencedMatchAt(s, a) == Some(Span(a + 8, e)) by {
      FencedBlockOpens(s, a);
      FencedBlockCloses(s, a + 9, e);
    }
    assert FirstFencedMatch(s, 0) == Some(a) by {
      forall k: nat | k < a
        ensures !FencedAt(s, k)
      {
        NoFencedMatchBeforeBlock(s, a, k);
      }
      FirstFencedMatchIs(s, 0, a);
    }
  }

  /** Text that is not blank yields the located object. */
  lemma ExtractsLocated(s: string, sp: Span)
    requires !IsBlank(s) && Locate(s) == Some(sp)
    ensures ExtractJson(s) == Some(s[sp.start..sp.end])
  {
  }

  /** A ```` ```json ```` block whose body starts with `{` and ends with `}`,
      with no other fence before or after it, is extracted whole. The body
      itself may hold fences and `}`s: the match is greedy. */
  lemma FencedJsonBlockIsExtracted(before: string, json: string, after: string)
    requires |json| >= 2 && json[0] == '{' && json[|json| - 1] == '}'
    requires !Contains(before, Fence) && !Contains(after, Fence)
    ensures ExtractJson(before + JsonFenceOpen + json + JsonFenceClose + after) == Some(json)
  {
    var s := before + JsonFenceOpen + json + JsonFenceClose + after;
    var a := |before|;
    var e := a + 8 + |json|;
    assert a + 9 < e && e + 4 <= |s| && s[a + 8..e] == json
        && s[a..a + 8] == JsonFenceOpen && s[a + 8] == '{'
        && s[e - 1] == '}' && s[e..e + 4] == JsonFenceClose
        && !Contains(s[..a], Fence) && !Contains(s[e + 4..], Fence) by {
      FencedLayoutSlices(s, before, json, after);
      assert s[a + 8] == json[0];
      assert s[e - 1] == json[|json| - 1];
    }
    FencedBlockIsLocated(s, a, e);
    assert !IsBlank(s) by {
      assert !IsWhiteSpace(s[a + 8]);
    }
    ExtractsLocated(s, Span(a + 8, e));
  }

  /** Two ```` ```json ```` blocks in one reply are not told apart: the
      greedy body runs from the first block's `{` to the second block's `}`,
      taking the fences and text between them along. */
  lemma TwoBlocksAreJoined(first: string, middle: string, second: string)
    requires |first| >= 1 && first[0] == '{'
    requires |second| >= 1 && second[|second| - 1] == '}'
    ensures ExtractJson(JsonFenceOpen + first + JsonFenceClose + middle + JsonFenceOpen + second + JsonFenceClose)
         == Some(first + JsonFenceClose + middle + JsonFenceOpen + second)
  {
    var json := first + JsonFenceClose + middle + JsonFenceOpen + second;
    var t := JsonFenceOpen + first + JsonFenceClose + middle + JsonFenceOpen + second + JsonFenceClose;
    assert json[0] == first[0] && json[|json| - 1] == second[|second| - 1] by {
    }
    assert !Contains("", Fence) by {
    }
    assert t == "" + JsonFenceOpen + json + JsonFenceClose + "" by {
    }
    FencedJsonBlockIsExtracted("", json, "");
  }
}

=== FILE: models.dfy ===
/** The records exchanged between the browser client and the backend. They
    carry no behaviour; every nullable field is an `Option`. */
module Models {
  import opened Results

  /** One generated file: its name and its full text. */
  datatype FileModel = FileModel(name: string, content: string)

  /** One targeted change: replace the text of region `region` in file `file`.
      `action` is free text; only "replace_region" has an effect. */
  datatype EditModel = EditModel(file: string, action: string, region: string, content: string)

  /** How the generated app would be served; carried through, never interpreted. */
  datatype RunInfo = RunInfo(command: string, previewPort: Option<int>)

  /** The backend's answer: either a full file set (generation) or a list of
      edits, an optional explanation, and the edit flag the backend sets. */
  datatype GenerateResponse = GenerateResponse(
    files: Option<seq<FileModel>>,
    edits: Option<seq<EditModel>>,
    run: Option<RunInfo>,
    explain: Option<string>,
    isEdit: bool)

  /** What the client sends: the prompt, the edit flag and, in edit mode, the
      files to be edited. */
  datatype GenerateRequest = GenerateRequest(
    prompt: string,
    isEdit: bool,
    currentFiles: Option<seq<FileModel>>)
}

=== FILE: ollama_client.dfy ===
/** The backend's generation step (`OllamaClient.GenerateAsync`) without its
    transport: the choice between generation and edit mode, and what happens
    to the model's reply once the chat call has returned it. The chat call
    (prompt texts, HTTP, status and `message.content` checks) and
    `JsonSerializer.Deserialize` are parameters. */
module OllamaClient {
  import opened Results
  import opened Models
  import opened JsonExtraction
  import Text

  /** Which system prompt the backend sends. */
  datatype Mode = Generation | Edit

  /** Edit mode needs the flag and at least one current file; a flagged
      request with a null or empty list is served as a generation. */
  function SelectMode(req: GenerateRequest): (m: Mode)
    ensures m == Edit <==> req.isEdit && req.currentFiles.Some? && |req.currentFiles.value| > 0
    ensures !req.isEdit ==> m == Generation
  {
    if req.isEdit then
      match req.currentFiles
      case Some(files) => if |files| > 0 then Edit else Generation
      case None => Generation
    else Generation
  }

  /** What the chat call yields: the reply's `message.content` (`None` for a
      JSON null), or the message of the exception it raised (connection
      failure, error status, a reply without `message.content`). */
  datatype ChatReply = Reply(content: Option<string>) | ChatFailed(message: string)

  /** What deserializing the extracted text yields: a response, or the
      message of the exception the serializer raised. */
  datatype Deserialized = Parsed(response: GenerateResponse) | Malformed(message: string)

  /** The exceptions `GenerateAsync` lets escape. */
  datatype GenerateError = ChatError(message: string) | JsonNotFound | DeserializeError(message: string)

  const JsonNotFoundMessage: string := "Could not find JSON in model output."

  /** The message of the exception raised for each error: the chat call's
      and the serializer's own messages pass through unchanged. */
  function Message(e: GenerateError): string {
    match e
    case ChatError(m) => m
    case JsonNotFound => JsonNotFoundMessage
    case DeserializeError(m) => m
  }

  /** The text the extraction works on: a null content counts as empty. */
  function ModelOutput(reply: ChatReply): string
    requires reply.Reply?
  {
    reply.content.GetOr("")
  }

  /** Two responses agree on everything but the edit flag. */
  predicate SamePayload(a: GenerateResponse, b: GenerateResponse) {
    a.files == b.files && a.edits == b.edits && a.run == b.run && a.explain == b.explain
  }

  /** Lines 161-169 of `GenerateAsync`: extract, deserialize, mark as edit.
      A chat failure propagates; the JSON is missing exactly when the reply
      has no `{` before a `}`; a returned response is the deserialized one
      with its edit flag set, whatever the mode was. */
  function CompleteGeneration(reply: ChatReply, deserialize: string -> Deserialized): (r: Result<GenerateResponse, GenerateError>)
    ensures reply.ChatFailed? ==> r == Failure(ChatError(reply.message))
    ensures reply.Reply? ==> (r == Failure(JsonNotFound) <==> !HasBracePair(ModelOutput(reply), 0))
    ensures reply.Reply? && IsBlank(ModelOutput(reply)) ==> r == Failure(JsonNotFound)
    ensures reply.Reply? && !HasBracePair(ModelOutput(reply), 0) ==> Message(r.error) == JsonNotFoundMessage
    ensures reply.ChatFailed? ==> Message(r.error) == reply.message
    ensures r.Success? ==> r.value.isEdit
    ensures r.Success? ==>
              && reply.Reply?
              && ExtractJson(ModelOutput(reply)).Some?
              && deserialize(ExtractJson(ModelOutput(reply)).value).Parsed?
              && SamePayload(r.value, deserialize(ExtractJson(ModelOutput(reply)).value).response)
    ensures reply.Reply? && ExtractJson(ModelOutput(reply)).Some? ==>
              match deserialize(ExtractJson(ModelOutput(reply)).value)
              case Parsed(p) => r == Success(p.(isEdit := true))
              case Malformed(m) => r == Failure(DeserializeError(m))
  {
    match reply
    case ChatFailed(m) => Failure(ChatError(m))
    case Reply(content) =>
      var text := content.GetOr("");
      ExtractFailsIffNoBracePair(text);
      match ExtractJson(text)
      case None => Failure(JsonNotFound)
      case Some(json) =>
        match deserialize(json)
        case Malformed(m) => Failure(DeserializeError(m))
        case Parsed(resp) => Success(resp.(isEdit := true))
  }

  /** `GenerateAsync`: the chat call is made in the selected mode and its
      reply completed as above. */
  function Generate(req: GenerateRequest, chat: (Mode, GenerateRequest) -> ChatReply, deserialize: string -> Deserialized): (r: Result<GenerateResponse, GenerateError>)
    ensures r.Success? ==> r.value.isEdit
  {
    CompleteGeneration(chat(SelectMode(req), req), deserialize)
  }

  /** A generation answered with a fenced block yields the block's object,
      still marked as an edit. */
  lemma GenerationIsMarkedAsEdit(req: GenerateRequest, chat: (Mode, GenerateRequest) -> ChatReply, deserialize: string -> Deserialized, before: string, json: string, after: string, resp: GenerateResponse)
    requires SelectMode(req) == Generation
    requires chat(Generation, req) == Reply(Some(before + JsonFenceOpen + json + JsonFenceClose + after))
    requires |json| >= 2 && json[0] == '{' && json[|json| - 1] == '}'
    requires !Text.Contains(before, Fence) && !Text.Contains(after, Fence)
    requires deserialize(json) == Parsed(resp)
    ensures Generate(req, chat, deserialize) == Success(resp.(isEdit := true))
  {
    FencedJsonBlockIsExtracted(before, json, after);
  }
}

=== FILE: preview.dfy ===
/** The preview of the browser client (`handleRun`): the page is assembled
    from the first files named `index.html`, `style.css` and `app.js`
    (names compared in lower case), the stylesheet going into a `<style>`
    block before the first `</head>` and the script into a `<script>` block
    before the first `</body>`, with prepend/append fallbacks. The blob URL
    made from the page is not modelled; the page text is the result.

    Two versions are given. The `AsWritten` ones do what the client code
    does, including the `$`-pattern expansion JavaScript's `replace` applies
    to its replacement string; the plain ones insert the blocks verbatim,
    which is what the code evidently means to do. They agree whenever the
    stylesheet and script contain no `$`. */
module Preview {
  import opened Results
  import opened Text
  import opened Models

  const IndexHtml: string := "index.html"
  const StyleCss: string := "style.css"
  const AppJs: string := "app.js"
  const HeadClose: string := "</head>"
  const BodyClose: string := "</body>"
  const IndexHtmlNotFoundMessage: string := "index.html not found in files."

  /** Why no page is produced: there are no files at all (the client then
      does nothing), or there is no non-empty `index.html`. */
  datatype PreviewError = NoFiles | IndexHtmlNotFound

  /** `toLowerCase` on one character, for the ASCII letters. */
  function LowerAscii(c: char): char {
    if 'A' <= c <= 'Z' then (c as int + 32) as char else c
  }

  /** `toLowerCase`, for the ASCII letters. */
  function ToLower(s: string): string {
    seq(|s|, i requires 0 <= i < |s| => LowerAscii(s[i]))
  }

  /** `c` is `d` up to the case of an ASCII letter. */
  predicate SameIgnoringCase(c: char, d: char) {
    c == d || ('A' <= c <= 'Z' && c as int + 32 == d as int)
  }

  /** Comparing a lower-cased name with a target that has no capitals is
      comparing the two letter by letter, ignoring case. */
  lemma ToLowerMatchesIgnoringCase(s: string, target: string)
    requires forall i :: 0 <= i < |target| ==> !('A' <= target[i] <= 'Z')
    ensures ToLower(s) == target <==>
              |s| == |target| && forall i :: 0 <= i < |s| ==> SameIgnoringCase(s[i], target[i])
  {
    if ToLower(s) == target {
      forall i | 0 <= i < |s|
        ensures SameIgnoringCase(s[i], target[i])
      {
        assert target[i] == LowerAscii(s[i]);
      }
    }
    if |s| == |target| && forall i :: 0 <= i < |s| ==> SameIgnoringCase(s[i], target[i]) {
      forall i | 0 <= i < |s|
        ensures ToLower(s)[i] == target[i]
      {
        assert SameIgnoringCase(s[i], target[i]);
      }
    }
  }

  /** The file answers to `target` (given in lower case). */
  predicate NamedAs(f: FileModel, target: string) {
    ToLower(f.name) == target
  }

  /** `files.find(f => f.name.toLowerCase() === target)`, as an index: the
      first file that answers to `target`, if any. */
  function FindFile(files: seq<FileModel>, target: string): (r: Option<nat>)
    ensures r.Some? ==> r.value < |files| && NamedAs(files[r.value], target)
    ensures r.Some? ==> forall j :: 0 <= j < r.value ==> !NamedAs(files[j], target)
    ensures r.None? <==> forall j :: 0 <= j < |files| ==> !NamedAs(files[j], target)
  {
    if |files| == 0 then None
    else if NamedAs(files[0], target) then Some(0)
    else match FindFile(files[1..], target)
      case None => None
      case Some(i) => Some(i + 1)
  }

  /** `files.find(...)?.content`. */
  function FindContent(files: seq<FileModel>, target: string): Option<string> {
    match FindFile(files, target)
    case None => None
    case Some(i) => Some(files[i].content)
  }

  function StyleBlock(css: string): string {
    "<style>\n" + css + "\n</style>\n"
  }

  function ScriptBlock(js: string): string {
    "<script>\n" + js + "\n</script>\n"
  }

  /** The stylesheet step as the client writes it: `replace` with a template
      that is subject to `$`-expansion. */
  function InjectStyleAsWritten(html: string, css: string): string {
    if css == "" then html
    else if IndexOf(html, HeadClose).Some? then JsReplace(html, HeadClose, StyleBlock(css) + HeadClose)
    else StyleBlock(css) + html
  }

  /** The script step as the client writes it. */
  function InjectScriptAsWritten(html: string, js: string): string {
    if js == "" then html
    else if IndexOf(html, BodyClose).Some? then JsReplace(html, BodyClose, ScriptBlock(js) + BodyClose)
    else html + "\n" + ScriptBlock(js)
  }

  /** Inserts `block` right before the first `tag`, or uses `fallback` when
      there is none. */
  function InsertBefore(html: string, tag: string, block: string, fallback: string): (r: string)
    ensures IndexOf(html, tag).None? ==> r == fallback
    ensures IndexOf(html, tag).Some? ==>
              var h := IndexOf(html, tag).value;
              && |r| == |html| + |block|
              && r[..h] == html[..h]
              && r[h..h + |block|] == block
              && r[h + |block|..] == html[h..]
              && OccursAt(r, tag, h + |block|)
  {
    match IndexOf(html, tag)
    case None => fallback
    case Some(h) =>
      var r := html[..h] + block + html[h..];
      assert r[h + |block|..] == html[h..];
      assert OccursAt(html, tag, h);
      assert r[h + |block|..h + |block| + |tag|] == r[h + |block|..][..|tag|] == html[h..][..|tag|];
      r
  }

  /** Where the tag is found, the block goes in right before it. */
  lemma InsertBeforeFound(html: string, tag: string, block: string, fallback: string, h: nat)
    requires IndexOf(html, tag) == Some(h)
    ensures InsertBefore(html, tag, block, fallback) == html[..h] + block + html[h..]
  {
  }

  /** The stylesheet step inserting the block verbatim. */
  function InjectStyle(html: string, css: string): string {
    if css == "" then html
    else InsertBefore(html, HeadClose, StyleBlock(css), StyleBlock(css) + html)
  }

  /** The script step inserting the block verbatim. */
  function InjectScript(html: string, js: string): string {
    if js == "" then html
    else InsertBefore(html, BodyClose, ScriptBlock(js), html + "\n" + ScriptBlock(js))
  }

  /** The page `handleRun` builds, with the client's `replace`. */
  function BuildPreviewAsWritten(files: seq<FileModel>): (r: Result<string, PreviewError>)
    ensures r == Failure(NoFiles) <==> |files| == 0
    ensures r == Failure(IndexHtmlNotFound) <==> |files| > 0 && FindContent(files, IndexHtml).GetOr("") == ""
  {
    if |files| == 0 then Failure(NoFiles)
    else
      var html := FindContent(files, IndexHtml).GetOr("");
      if html == "" then Failure(IndexHtmlNotFound)
      else
        var css := FindContent(files, StyleCss).GetOr("");
        var js := FindContent(files, AppJs).GetOr("");
        Success(InjectScriptAsWritten(InjectStyleAsWritten(html, css), js))
  }

  /** The page `handleRun` means to build: the blocks inserted verbatim. */
  function BuildPreview(files: seq<FileModel>): (r: Result<string, PreviewError>)
    ensures r == Failure(NoFiles) <==> |files| == 0
    ensures r == Failure(IndexHtmlNotFound) <==> |files| > 0 && FindContent(files, IndexHtml).GetOr("") == ""
    ensures r.Success? ==> |r.value| >= |FindContent(files, IndexHtml).value|
  {
    if |files| == 0 then Failure(NoFiles)
    else
      var html := FindContent(files, IndexHtml).GetOr("");
      if html == "" then Failure(IndexHtmlNotFound)
      else
        var css := FindContent(files, StyleCss).GetOr("");
        var js := FindContent(files, AppJs).GetOr("");
        Success(InjectScript(InjectStyle(html, css), js))
  }

  /** Replacing the first `tag` by `block + tag`, with no `$` in either,
      inserts `block` right before that `tag`. */
  lemma ReplaceInsertsBefore(html: string, tag: string, block: string)
    requires '$' !in block && '$' !in tag
    requires IndexOf(html, tag).Some?
    ensures JsReplace(html, tag, block + tag) == InsertBefore(html, tag, block, html)
  {
    var h := IndexOf(html, tag).value;
    var before, after := html[..h], html[h + |tag|..];
    assert ExpandReplacement(block + tag, tag, before, after) == block + tag by {
      assert '$' !in block + tag;
      ExpandWithoutDollar(block + tag, tag, before, after);
    }
    assert html[h..] == tag + after by {
      assert OccursAt(html, tag, h);
    }
    assert before + (block + tag) + after == before + block + html[h..];
  }


  /** Without `$` in the stylesheet, the client's `replace` inserts the
      style block verbatim. */
  lemma InjectStyleAgrees(html: string, css: string)
    requires '$' !in css
    ensures InjectStyleAsWritten(html, css) == InjectStyle(html, css)
  {
    if css != "" && IndexOf(html, HeadClose).Some? {
      assert '$' !in StyleBlock(css) && '$' !in HeadClose;
      ReplaceInsertsBefore(html, HeadClose, StyleBlock(css));
    }
  }

  /** Without `$` in the script, the client's `replace` inserts the script
      block verbatim. */
  lemma InjectScriptAgrees(html: string, js: string)
    requires '$' !in js
    ensures InjectScriptAsWritten(html, js) == InjectScript(html, js)
  {
    if js != "" && IndexOf(html, BodyClose).Some? {
      assert '$' !in ScriptBlock(js) && '$' !in BodyClose;
      ReplaceInsertsBefore(html, BodyClose, ScriptBlock(js));
    }
  }

  /** The page as written and the page as meant coincide unless the
      stylesheet or the script that is used contains a `$`. */
  lemma BuildPreviewAgrees(files: seq<FileModel>)
    requires '$' !in FindContent(files, StyleCss).GetOr("")
    requires '$' !in FindContent(files, AppJs).GetOr("")
    ensures BuildPreviewAsWritten(files) == BuildPreview(files)
  {
    if |files| > 0 && FindContent(files, IndexHtml).GetOr("") != "" {
      var html := FindContent(files, IndexHtml).value;
      var css := FindContent(files, StyleCss).GetOr("");
      var js := FindContent(files, AppJs).GetOr("");
      InjectStyleAgrees(html, css);
      InjectScriptAgrees(InjectStyle(html, css), js);
    }
  }

  /** `$'` in a script is replaced by the page text after the first
      `</body>` when the client injects the script. */
  lemma {:induction false} DollarQuoteTakesTextAfterBody(html: string, head: string, tail: string)
    requires '$' !in head && '$' !in tail
    requires IndexOf(html, BodyClose).Some?
    ensures var b := IndexOf(html, BodyClose).value;
            InjectScriptAsWritten(html, head + "$'" + tail)
              == InsertBefore(html, BodyClose, ScriptBlock(head + html[b + |BodyClose|..] + tail), html)
  {
    var b := IndexOf(html, BodyClose).value;
    var before, after := html[..b], html[b + |BodyClose|..];
    ScriptTemplateWithDollarQuote(head, tail, before, after);
    var fixed := ScriptBlock(head + after + tail) + BodyClose;
    assert OccursAt(html, BodyClose, b);
    assert html[b..] == BodyClose + after;
    assert before + fixed + after == html[..b] + ScriptBlock(head + after + tail) + html[b..];
  }

  /** The script template with `$'` in the script expands to the template
      of the script with `after` in its place. */
  lemma ScriptTemplateWithDollarQuote(head: string, tail: string, before: string, after: string)
    requires '$' !in head && '$' !in tail
    ensures ExpandReplacement(ScriptBlock(head + "$'" + tail) + BodyClose, BodyClose, before, after)
         == ScriptBlock(head + after + tail) + BodyClose
  {
    var opening, closing := "<script>\n" + head, tail + "\n</script>\n" + BodyClose;
    assert '$' !in opening && '$' !in closing;
    assert ScriptBlock(head + "$'" + tail) + BodyClose == opening + "$'" + closing;
    ExpandSingleDollarQuote(opening, closing, BodyClose, before, after);
    assert opening + after + closing == ScriptBlock(head + after + tail) + BodyClose;
  }

  /** The finding in terms of whole files: when `index.html` ends with its
      first `</body>` and there is no stylesheet, a `$'` in `app.js` simply
      disappears from the client's page, while the intended page keeps it. */
  lemma DollarQuoteInScriptIsLost(files: seq<FileModel>, head: string, tail: string)
    requires FindContent(files, IndexHtml).GetOr("") != ""
    requires FindContent(files, StyleCss).GetOr("") == ""
    requires FindContent(files, AppJs) == Some(head + "$'" + tail)
    requires '$' !in head && '$' !in tail
    requires var html := FindContent(files, IndexHtml).value;
             IndexOf(html, BodyClose) == Some(|html| - |BodyClose|)
    ensures var html := FindContent(files, IndexHtml).value;
            && BuildPreviewAsWritten(files) == Success(InsertBefore(html, BodyClose, ScriptBlock(head + tail), html))
            && BuildPreview(files) == Success(InsertBefore(html, BodyClose, ScriptBlock(head + "$'" + tail), html))
            && BuildPreviewAsWritten(files) != BuildPreview(files)
  {
    var html := FindContent(files, IndexHtml).value;
    DollarQuoteTakesTextAfterBody(html, head, tail);
    assert html[|html| - |BodyClose| + |BodyClose|..] == "";
    assert head + "" + tail == head + tail;
    var lost := InsertBefore(html, BodyClose, ScriptBlock(head + tail), html);
    var kept := InsertBefore(html, BodyClose, ScriptBlock(head + "$'" + tail), html);
    assert |kept| == |lost| + 2;
  }

  /** The tags around a stylesheet are not `</body>`. */
  lemma StyleTagsLackBodyClose()
    ensures !Contains("<style>", BodyClose) && !Contains("</style>", BodyClose)
  {
    var opening, closing := "<style>", "</style>";
    forall j: nat
      ensures !OccursAt(opening, BodyClose, j)
    {
      if j == 0 {
        assert opening[..7][1] == 's';
      }
    }
    forall j: nat
      ensures !OccursAt(closing, BodyClose, j)
    {
      if j == 0 {
        assert closing[..7][2] == 's';
      } else if j == 1 {
        assert closing[1..8][0] == '/';
      }
    }
  }

  /** After the style block goes in before the first `</head>`, the first
      `</body>` is the page's own, moved by the length of the block, as long
      as the stylesheet itself holds no `</body>`. */
  lemma BodyCloseAfterStyle(html: string, css: string, h: nat, b: nat)
    requires IndexOf(html, HeadClose) == Some(h) && IndexOf(html, BodyClose) == Some(b) && h < b
    requires !Contains(css, BodyClose)
    ensures IndexOf(html[..h] + StyleBlock(css) + html[h..], BodyClose) == Some(b + |StyleBlock(css)|)
  {
    PageAndStyleLackBodyClose(html, css, h, b);
    IndexOfAfterInsertion(html, h, StyleBlock(css), BodyClose, b);
  }

  /** The page up to `h`, before its first `</body>`, followed by the style
      block of a stylesheet without `</body>`, holds no `</body>`. */
  lemma PageAndStyleLackBodyClose(html: string, css: string, h: nat, b: nat)
    requires IndexOf(html, BodyClose) == Some(b) && h <= b
    requires !Contains(css, BodyClose)
    ensures !Contains(html[..h] + StyleBlock(css), BodyClose)
    ensures '\n' !in BodyClose && StyleBlock(css)[|StyleBlock(css)| - 1] == '\n'
  {
    var t := BodyClose;
    var a := html[..h] + "<style>";
    assert '\n' !in t && !Contains(a, t) && !Contains("</style>", t) && !Contains("", t) by {
      PageBeforeStyleLacksBodyClose(html, h, b);
      StyleTagsLackBodyClose();
      assert forall j: nat :: !OccursAt("", t, j);
    }
    assert !Contains(a + "\n" + css, t) by {
      NoOccurrenceAcrossNewline(a, css, t);
    }
    assert !Contains(a + "\n" + css + "\n" + "</style>", t) by {
      NoOccurrenceAcrossNewline(a + "\n" + css, "</style>", t);
    }
    assert !Contains(a + "\n" + css + "\n" + "</style>" + "\n" + "", t) by {
      NoOccurrenceAcrossNewline(a + "\n" + css + "\n" + "</style>", "", t);
    }
    assert a + "\n" + css + "\n" + "</style>" + "\n" + "" == html[..h] + StyleBlock(css);
  }

  /** The page up to `h`, before the first `</body>`, followed by the opening
      style tag, holds no `</body>`. */
  lemma PageBeforeStyleLacksBodyClose(html: string, h: nat, b: nat)
    requires IndexOf(html, BodyClose) == Some(b) && h <= b
    ensures !Contains(html[..h] + "<style>", BodyClose)
    ensures '\n' !in BodyClose
  {
    var t := BodyClose;
    assert t[0] == '<' && '<' !in t[1..];
    StyleTagsLackBodyClose();
    NoOccurrenceBeforeFirst(html, t, h);
    NoOccurrenceAcrossMark(html[..h], "<style>", t);
  }

  /** Regrouping five texts joined by three newlines. */
  lemma Regroup(a: string, b: string, c: string, d: string, e: string)
    ensures a + b + "\n" + (c + "\n" + (d + "\n" + e)) == a + (b + "\n" + c + "\n" + d + "\n") + e
  {
  }

  /** The style block spelled out around its newlines. */
  lemma StyleSplice(before: string, css: string, after: string)
    ensures before + "<style>" + "\n" + (css + "\n" + ("</style>" + "\n" + after)) == before + StyleBlock(css) + after
    ensures |StyleBlock(css)| == |css| + 18
  {
    assert StyleBlock(css) == "<style>" + "\n" + css + "\n" + "</style>" + "\n";
    Regroup(before, "<style>", css, "</style>", after);
  }

  /** A page with `</head>` before `</body>`: the style block lands right
      before the first `</head>`, the script block right before the first
      `</body>`, and the page text around them is kept in order. */
  lemma {:induction false} StandardPageLayout(html: string, css: string, js: string, h: nat, b: nat)
    requires css != "" && js != ""
    requires IndexOf(html, HeadClose) == Some(h) && IndexOf(html, BodyClose) == Some(b) && h < b
    requires !Contains(css, BodyClose)
    ensures InjectScript(InjectStyle(html, css), js)
         == html[..h] + StyleBlock(css) + html[h..b] + ScriptBlock(js) + html[b..]
  {
    var sb := StyleBlock(css);
    var styled := html[..h] + sb + html[h..];
    var b' := b + |sb|;
    assert IndexOf(styled, BodyClose) == Some(b') by {
      BodyCloseAfterStyle(html, css, h, b);
    }
    assert InjectStyle(html, css) == styled by {
      InsertBeforeFound(html, HeadClose, sb, sb + html, h);
    }
    assert InjectScript(styled, js) == styled[..b'] + ScriptBlock(js) + styled[b'..] by {
      InsertBeforeFound(styled, BodyClose, ScriptBlock(js), styled + "\n" + ScriptBlock(js), b');
    }
    assert styled[..b'] == html[..h] + sb + html[h..b] && styled[b'..] == html[b..] by {
      SplitAfterInsertion(html, h, sb, b);
    }
  }


  /** Text inserted at `h` shifts every later cut by its length. */
  lemma SplitAfterInsertion(html: string, h: nat, block: string, b: nat)
    requires h <= b <= |html|
    ensures var r := html[..h] + block + html[h..];
            && r[..b + |block|] == html[..h] + block + html[h..b]
            && r[b + |block|..] == html[b..]
  {
    var r := html[..h] + block + html[h..];
    assert r[..b + |block|] == html[..h] + block + html[h..b] by {
      assert forall k :: 0 <= k < b + |block| ==> r[k] == (html[..h] + block + html[h..b])[k];
    }
    assert r[b + |block|..] == html[b..] by {
      assert forall k :: 0 <= k < |html| - b ==> r[b + |block|..][k] == html[b..][k];
    }
  }

  /** A page with neither `</head>` nor `</body>`: the style block is put in
      front and the script block, after a newline, at the end. */
  lemma {:induction false} BarePageLayout(html: string, css: string, js: string)
    requires css != "" && js != ""
    requires IndexOf(html, HeadClose).None? && IndexOf(html, BodyClose).None?
    requires !Contains(css, BodyClose)
    ensures InjectScript(InjectStyle(html, css), js) == StyleBlock(css) + html + "\n" + ScriptBlock(js)
  {
    var t := BodyClose;
    assert '\n' !in t;
    StyleTagsLackBodyClose();
    NoOccurrenceAcrossNewline("</style>", html, t);
    NoOccurrenceAcrossNewline(css, "</style>" + "\n" + html, t);
    NoOccurrenceAcrossNewline("<style>", css + "\n" + ("</style>" + "\n" + html), t);
    StyleSplice("", css, html);
    assert "" + "<style>" == "<style>" && "" + StyleBlock(css) + html == StyleBlock(css) + html;
  }

  /** The page `handleRun` builds for the usual three files: with `</head>`
      before `</body>` in `index.html` and non-empty `style.css` and
      `app.js`, the style block sits right before the first `</head>` and
      the script block right before the first `</body>`; with no `$` in
      either, the client's own page is the same. */
  lemma PreviewOfStandardPage(files: seq<FileModel>, html: string, css: string, js: string, h: nat, b: nat)
    requires FindContent(files, IndexHtml) == Some(html) && html != ""
    requires FindContent(files, StyleCss) == Some(css) && css != ""
    requires FindContent(files, AppJs) == Some(js) && js != ""
    requires IndexOf(html, HeadClose) == Some(h) && IndexOf(html, BodyClose) == Some(b) && h < b
    requires !Contains(css, BodyClose)
    ensures BuildPreview(files) == Success(html[..h] + StyleBlock(css) + html[h..b] + ScriptBlock(js) + html[b..])
    ensures '$' !in css && '$' !in js ==> BuildPreviewAsWritten(files) == BuildPreview(files)
  {
    StandardPageLayout(html, css, js, h, b);
    if '$' !in css && '$' !in js {
      BuildPreviewAgrees(files);
    }
  }
}

=== FILE: region_patch.dfy ===
/** The region patch engine of the browser client (`applyEdits`): each
    "replace_region" edit rewrites the text between the comment markers
    `/* R-start */` and `/* R-end */` of every file with the edit's name,
    and the edits of a batch apply one after another. */
module RegionPatch {
  import opened Results
  import opened Text
  import opened Models

  /** The only action that has an effect. */
  const ReplaceRegionAction: string := "replace_region"

  function StartTag(region: string): string {
    "/* " + region + "-start */"
  }

  function EndTag(region: string): string {
    "/* " + region + "-end */"
  }

  /** The content after splicing `replacement` between the markers `st` and
      `et`: everything up to the end of the first `st`, a newline, the
      replacement, a newline, then everything from the first `et` on. When
      either marker is missing the content is left alone. Marker order is
      not checked: an `et` before the `st` yields the raw slices, duplicating
      the text between them. */
  function Splice(content: string, st: string, et: string, replacement: string): (r: string)
    ensures !Contains(content, st) || !Contains(content, et) ==> r == content
  {
    if IndexOf(content, st).Some? && IndexOf(content, et).Some? then
      content[..IndexOf(content, st).value + |st|] + "\n" + replacement + "\n" + content[IndexOf(content, et).value..]
    else content
  }

  /** The content of one file after one edit of `region` with `replacement`. */
  function SpliceRegion(content: string, region: string, replacement: string): string {
    Splice(content, StartTag(region), EndTag(region), replacement)
  }

  /** When both markers are present the splice keeps the first `st` where it
      was, and the result holds the replacement and an `et`, whatever the
      order of the markers. */
  lemma SpliceFindsMarkers(content: string, st: string, et: string, replacement: string)
    requires Contains(content, st) && Contains(content, et)
    ensures var r := Splice(content, st, et, replacement);
            && IndexOf(r, st) == IndexOf(content, st)
            && Contains(r, et)
            && Contains(r, replacement)
  {
    var si, ei := IndexOf(content, st).value, IndexOf(content, et).value;
    var before, after := content[..si + |st|], content[ei..];
    var r := Splice(content, st, et, replacement);
    assert r == before + "\n" + replacement + "\n" + after && |before| == si + |st| by {
      SpliceFound(content, st, et, replacement, si, ei);
    }
    assert OccursAt(after, et, 0) by {
      assert after[..|et|] == content[ei..ei + |et|];
    }
    JoinHoldsItsPieces(before, replacement, after, et);
    SpliceKeepsEarlyMarker(content, st, et, replacement, st);
  }



  /** Both markers are present and the first `st` ends at or before the
      first `et` begins: the layout the generator is asked to emit. */
  predicate Ordered(content: string, st: string, et: string) {
    && IndexOf(content, st).Some?
    && IndexOf(content, et).Some?
    && IndexOf(content, st).value + |st| <= IndexOf(content, et).value
  }

  /** Where the body of an ordered region begins (just past the first `st`). */
  function BodyStart(content: string, st: string, et: string): nat
    requires Ordered(content, st, et)
  {
    IndexOf(content, st).value + |st|
  }

  /** Where the body of an ordered region ends (where the first `et` begins). */
  function BodyEnd(content: string, st: string, et: string): (e: nat)
    requires Ordered(content, st, et)
    ensures BodyStart(content, st, et) <= e <= |content|
  {
    IndexOf(content, et).value
  }

  /** The text strictly between the markers of an ordered region. */
  function Body(content: string, st: string, et: string): Option<string> {
    if Ordered(content, st, et) then
      Some(content[BodyStart(content, st, et)..BodyEnd(content, st, et)])
    else None
  }

  /** An edit behaves as a replacement: either a marker is missing (the edit
      is skipped) or the region is ordered. */
  ghost predicate Usable(content: string, st: string, et: string) {
    !Contains(content, st) || !Contains(content, et) || Ordered(content, st, et)
  }

  /** `Usable` for the markers of `region`. */
  ghost predicate MarkersUsable(content: string, region: string) {
    Usable(content, StartTag(region), EndTag(region))
  }

  /** The marker texts contain a newline only if the region name does. */
  lemma EndTagHasNoNewline(region: string)
    requires '\n' !in region
    ensures '\n' !in EndTag(region) && 0 < |EndTag(region)| <= |StartTag(region)|
  {
    assert EndTag(region) == "/* " + region + "-end */";
  }

  /** In an ordered region the text up to the end of the first `st` holds no
      `et`: one there would precede the first one. */
  lemma KeptPrefixHasNoEndTag(content: string, st: string, et: string)
    requires Ordered(content, st, et) && |et| > 0
    ensures !Contains(content[..BodyStart(content, st, et)], et)
  {
    var n := BodyStart(content, st, et);
    var before := content[..n];
    assert forall k :: 0 <= k < n ==> before[k] == content[k];
    forall j: nat
      ensures !OccursAt(before, et, j)
    {
      if j + |et| <= n {
        OccursAtSameWindow(content, before, et, j, n);
      }
    }
  }

  /** The spliced text when both markers are found, piece by piece. */
  lemma SpliceFound(content: string, st: string, et: string, replacement: string, si: nat, ei: nat)
    requires IndexOf(content, st) == Some(si) && IndexOf(content, et) == Some(ei)
    ensures si + |st| <= |content| && ei <= |content|
    ensures Splice(content, st, et, replacement) == content[..si + |st|] + "\n" + replacement + "\n" + content[ei..]
    ensures |Splice(content, st, et, replacement)| == si + |st| + |replacement| + 2 + (|content| - ei)
  {
  }

  /** The spliced text of an ordered region, piece by piece. */
  lemma SpliceShape(content: string, st: string, et: string, replacement: string)
    requires Ordered(content, st, et)
    ensures Splice(content, st, et, replacement)
         == content[..BodyStart(content, st, et)] + "\n" + replacement + "\n" + content[BodyEnd(content, st, et)..]
  {
  }

  /** The pieces of a joined text, sliced back out. */
  lemma JoinSlices(r: string, before: string, replacement: string, after: string)
    requires r == before + "\n" + replacement + "\n" + after
    ensures |r| == |before| + |replacement| + 2 + |after|
    ensures r[..|before|] == before
    ensures r[|before| + 1..|before| + 1 + |replacement|] == replacement
    ensures r[|before|..|before| + |replacement| + 2] == "\n" + replacement + "\n"
    ensures r[|before| + |replacement| + 2..] == after
  {
  }

  /** A joined text starts with `before` and holds the replacement and
      whatever `after` opens with. */
  lemma JoinHoldsItsPieces(before: string, replacement: string, after: string, et: string)
    requires OccursAt(after, et, 0)
    ensures (before + "\n" + replacement + "\n" + after)[..|before|] == before
    ensures Contains(before + "\n" + replacement + "\n" + after, replacement)
    ensures Contains(before + "\n" + replacement + "\n" + after, et)
  {
    var r := before + "\n" + replacement + "\n" + after;
    JoinSlices(r, before, replacement, after);
    assert OccursAt(r, replacement, |before| + 1);
    OccursInSuffix(r, et, |before| + |replacement| + 2, 0);
  }

  /** In a joined text whose `after` opens with a newline-free `et` and
      whose other pieces lack it, the first `et` is the one opening
      `after`. */
  lemma {:induction false} EndTagAfterJoin(before: string, replacement: string, after: string, et: string)
    requires '\n' !in et
    requires !Contains(before, et) && !Contains(replacement, et)
    requires IndexOf(after, et) == Some(0)
    ensures IndexOf(before + "\n" + replacement + "\n" + after, et) == Some(|before| + |replacement| + 2)
  {
    IndexOfPastNewline(replacement, after, et, 0);
    IndexOfPastNewline(before, replacement + "\n" + after, et, |replacement| + 1);
    JoinGroupedRight(before, replacement, after);
  }

  /** The same joined text, grouped from the right. */
  lemma JoinGroupedRight(before: string, replacement: string, after: string)
    ensures before + "\n" + replacement + "\n" + after == before + "\n" + (replacement + "\n" + after)
  {
  }

  /** After splicing an ordered region, the first `et` sits right after the
      replacement and its trailing newline. */
  lemma {:induction false} EndTagAfterSplice(content: string, st: string, et: string, replacement: string)
    requires '\n' !in et && |et| > 0
    requires Ordered(content, st, et)
    requires !Contains(replacement, et)
    ensures IndexOf(Splice(content, st, et, replacement), et)
         == Some(BodyStart(content, st, et) + |replacement| + 2)
  {
    var n, e := BodyStart(content, st, et), BodyEnd(content, st, et);
    var before, after := content[..n], content[e..];
    assert !Contains(before, et) by {
      KeptPrefixHasNoEndTag(content, st, et);
    }
    assert IndexOf(after, et) == Some(0) by {
      IndexOfInSuffix(content, et, e);
    }
    assert Splice(content, st, et, replacement) == before + "\n" + replacement + "\n" + after by {
      SpliceShape(content, st, et, replacement);
    }
    EndTagAfterJoin(before, replacement, after, et);
  }

  /** After splicing an ordered region it is still ordered, its start marker
      has not moved and its body is the replacement with the two framing
      newlines. */
  lemma {:induction false} SpliceKeepsMarkers(content: string, st: string, et: string, replacement: string)
    requires '\n' !in et && |et| > 0
    requires Ordered(content, st, et)
    requires !Contains(replacement, et)
    ensures var r := Splice(content, st, et, replacement);
            && IndexOf(r, st) == IndexOf(content, st)
            && Ordered(r, st, et)
            && BodyStart(r, st, et) == BodyStart(content, st, et)
            && BodyEnd(r, st, et) == BodyStart(content, st, et) + |replacement| + 2
  {
    var n := BodyStart(content, st, et);
    var r := Splice(content, st, et, replacement);
    assert |r| >= n && r[..n] == content[..n] by {
      SpliceKeepsOutside(content, st, et, replacement);
    }
    assert IndexOf(r, st) == IndexOf(content, st) by {
      IndexOfPrefixStable(content, r, st, n);
    }
    EndTagAfterSplice(content, st, et, replacement);
  }


  /** Splicing an ordered region keeps the text outside the region: up to
      the end of the start marker, and from the end marker on. */
  lemma {:induction false} SpliceKeepsOutside(content: string, st: string, et: string, replacement: string)
    requires Ordered(content, st, et)
    ensures var r := Splice(content, st, et, replacement);
            var n, e := BodyStart(content, st, et), BodyEnd(content, st, et);
            && |r| == |content| - (e - n) + |replacement| + 2
            && r[..n] == content[..n]
            && r[n + |replacement| + 2..] == content[e..]
  {
    var n, e := BodyStart(content, st, et), BodyEnd(content, st, et);
    SpliceShape(content, st, et, replacement);
    JoinSlices(Splice(content, st, et, replacement), content[..n], replacement, content[e..]);
  }

  /** Splicing an ordered region: the old body is discarded and the new body
      is exactly the replacement framed by newlines. This needs the
      replacement not to contain `et` (else the next search would stop
      inside it) and `et` not to contain a newline (else it could straddle
      the inserted newlines). */
  lemma {:induction false} SpliceWellOrdered(content: string, st: string, et: string, replacement: string)
    requires '\n' !in et && |et| > 0
    requires Ordered(content, st, et)
    requires !Contains(replacement, et)
    ensures Body(Splice(content, st, et, replacement), st, et) == Some("\n" + replacement + "\n")
  {
    var n, e := BodyStart(content, st, et), BodyEnd(content, st, et);
    var r := Splice(content, st, et, replacement);
    assert Ordered(r, st, et) && BodyStart(r, st, et) == n && BodyEnd(r, st, et) == n + |replacement| + 2 by {
      SpliceKeepsMarkers(content, st, et, replacement);
    }
    assert r[n..n + |replacement| + 2] == "\n" + replacement + "\n" by {
      SpliceShape(content, st, et, replacement);
      JoinSlices(r, content[..n], replacement, content[e..]);
    }
  }


  /** Last write wins: splicing a region twice leaves only the second
      replacement, exactly as if the first splice had not happened. */
  lemma {:induction false} SpliceTwice(content: string, st: string, et: string, first: string, second: string)
    requires '\n' !in et && |et| > 0
    requires Usable(content, st, et)
    requires !Contains(first, et)
    ensures Splice(Splice(content, st, et, first), st, et, second)
         == Splice(content, st, et, second)
  {
    if Ordered(content, st, et) {
      var once := Splice(content, st, et, first);
      var n, e := BodyStart(content, st, et), BodyEnd(content, st, et);
      assert Ordered(once, st, et) && BodyStart(once, st, et) == n && BodyEnd(once, st, et) == n + |first| + 2 by {
        SpliceKeepsMarkers(content, st, et, first);
      }
      assert once[..n] == content[..n] && once[n + |first| + 2..] == content[e..] by {
        SpliceKeepsOutside(content, st, et, first);
      }
      assert Splice(once, st, et, second) == once[..n] + "\n" + second + "\n" + once[n + |first| + 2..] by {
        SpliceShape(once, st, et, second);
      }
      assert Splice(content, st, et, second) == content[..n] + "\n" + second + "\n" + content[e..] by {
        SpliceShape(content, st, et, second);
      }
    }
  }


  /** When both markers are present, a marker whose first occurrence ends
      within the kept prefix (up to the end of the first `st`) is still
      found where it was. */
  lemma SpliceKeepsEarlyMarker(content: string, st: string, et: string, replacement: string, t: string)
    requires IndexOf(content, st).Some? && IndexOf(content, et).Some?
    requires IndexOf(content, t).Some?
    requires IndexOf(content, t).value + |t| <= IndexOf(content, st).value + |st|
    ensures IndexOf(Splice(content, st, et, replacement), t) == IndexOf(content, t)
  {
    var si, ei := IndexOf(content, st).value, IndexOf(content, et).value;
    var before := content[..si + |st|];
    var r := Splice(content, st, et, replacement);
    assert |before| == si + |st| && r[..|before|] == before by {
      SpliceFound(content, st, et, replacement, si, ei);
      JoinSlices(r, before, replacement, content[ei..]);
    }
    IndexOfPrefixStable(content, r, t, |before|);
  }

  /** Reversed markers (the `et` first) are spliced by raw offsets: the text
      from the `et` to the end of the `st` ends up twice, both markers keep
      their positions, so the region stays reversed and every further edit
      of it grows the file again instead of replacing. */
  lemma {:induction false} ReversedMarkersDuplicate(content: string, st: string, et: string, replacement: string, si: nat, ei: nat)
    requires IndexOf(content, st) == Some(si)
    requires IndexOf(content, et) == Some(ei)
    requires ei < si && |et| <= |st|
    ensures var r := Splice(content, st, et, replacement);
            && IndexOf(r, st) == Some(si)
            && IndexOf(r, et) == Some(ei)
            && r[..si + |st|] == content[..si + |st|]
            && r[|r| - (|content| - ei)..] == content[ei..]
            && |r| == |content| + |replacement| + 2 + (si + |st| - ei)
            && |Splice(r, st, et, replacement)| > |r|
  {
    var r := Splice(content, st, et, replacement);
    assert IndexOf(r, st) == Some(si) by {
      SpliceKeepsEarlyMarker(content, st, et, replacement, st);
    }
    assert IndexOf(r, et) == Some(ei) by {
      SpliceKeepsEarlyMarker(content, st, et, replacement, et);
    }
    assert r[..si + |st|] == content[..si + |st|] && r[|r| - (|content| - ei)..] == content[ei..]
        && |r| == |content| + |replacement| + 2 + (si + |st| - ei) by {
      SpliceFound(content, st, et, replacement, si, ei);
      JoinSlices(r, content[..si + |st|], replacement, content[ei..]);
    }
    assert |Splice(r, st, et, replacement)| > |r| by {
      SpliceFound(r, st, et, replacement, si, ei);
    }
  }



  /** The edit rewrites files with this name. */
  predicate Targets(edit: EditModel, name: string) {
    edit.action == ReplaceRegionAction && edit.file == name
  }

  /** One file after one edit. */
  function ApplyEditToFile(f: FileModel, edit: EditModel): FileModel {
    if Targets(edit, f.name) then f.(content := SpliceRegion(f.content, edit.region, edit.content))
    else f
  }

  /** One edit applied to every file of the list. Names and order are kept;
      a file the edit does not target is untouched. */
  function ApplyEdit(files: seq<FileModel>, edit: EditModel): (r: seq<FileModel>)
    ensures |r| == |files|
    ensures forall i :: 0 <= i < |files| ==> r[i].name == files[i].name
    ensures forall i :: 0 <= i < |files| && !Targets(edit, files[i].name) ==> r[i] == files[i]
    ensures forall i :: 0 <= i < |files| && Targets(edit, files[i].name) ==>
              r[i].content == SpliceRegion(files[i].content, edit.region, edit.content)
  {
    seq(|files|, i requires 0 <= i < |files| => ApplyEditToFile(files[i], edit))
  }

  /** `applyEdits`: the edits of a batch, in order, each on the result of the
      ones before it. The list keeps its length and its names in order, and a
      file that no edit of the batch targets keeps its content. */
  function ApplyEdits(files: seq<FileModel>, edits: seq<EditModel>): (r: seq<FileModel>)
    ensures |r| == |files|
    ensures forall i :: 0 <= i < |files| ==> r[i].name == files[i].name
    ensures forall i :: 0 <= i < |files| && (forall k :: 0 <= k < |edits| ==> !Targets(edits[k], files[i].name))
              ==> r[i] == files[i]
    decreases |edits|
  {
    if |edits| == 0 then files
    else ApplyEdits(ApplyEdit(files, edits[0]), edits[1..])
  }

  /** Applying a batch is applying its first part, then its second part. */
  lemma {:induction false} ApplyEditsAppend(files: seq<FileModel>, first: seq<EditModel>, second: seq<EditModel>)
    ensures ApplyEdits(files, first + second) == ApplyEdits(ApplyEdits(files, first), second)
    decreases |first|
  {
    if |first| == 0 {
      assert first + second == second;
    } else {
      assert (first + second)[0] == first[0];
      assert (first + second)[1..] == first[1..] + second;
      ApplyEditsAppend(ApplyEdit(files, first[0]), first[1..], second);
    }
  }

  /** An edit whose markers are missing from every file it targets (at the
      point the batch reaches it) changes nothing, and the rest of the batch
      applies as if it were not there. */
  lemma SkippedEditIsTransparent(files: seq<FileModel>, earlier: seq<EditModel>, edit: EditModel, later: seq<EditModel>)
    requires var seen := ApplyEdits(files, earlier);
             forall i :: 0 <= i < |seen| && Targets(edit, seen[i].name) ==>
               !Contains(seen[i].content, StartTag(edit.region)) || !Contains(seen[i].content, EndTag(edit.region))
    ensures ApplyEdits(files, earlier + [edit] + later) == ApplyEdits(files, earlier + later)
  {
    var seen := ApplyEdits(files, earlier);
    assert ApplyEdit(seen, edit) == seen;
    ApplyEditsAppend(files, earlier + [edit], later);
    ApplyEditsAppend(files, earlier, [edit]);
    ApplyEditsAppend(files, earlier, later);
  }

  /** Two replacements of the same region of the same file in a row: only
      the second one's content remains, as if the first had not happened. */
  lemma ReplaceTwiceKeepsSecond(files: seq<FileModel>, first: EditModel, second: EditModel)
    requires first.action == ReplaceRegionAction && second.action == ReplaceRegionAction
    requires first.file == second.file && first.region == second.region
    requires '\n' !in first.region
    requires !Contains(first.content, EndTag(first.region))
    requires forall i :: 0 <= i < |files| && files[i].name == first.file ==> MarkersUsable(files[i].content, first.region)
    ensures ApplyEdit(ApplyEdit(files, first), second) == ApplyEdit(files, second)
  {
    var once := ApplyEdit(files, first);
    forall i | 0 <= i < |files| && files[i].name == first.file
      ensures ApplyEdit(once, second)[i] == ApplyEdit(files, second)[i]
    {
      EndTagHasNoNewline(first.region);
      SpliceTwice(files[i].content, StartTag(first.region), EndTag(first.region), first.content, second.content);
    }
  }

  /** A batch that opens with the same replacement twice gives the same
      files as the batch without the repetition (with `ApplyEditsAppend`
      this holds for a repetition anywhere in a batch). */
  lemma {:induction false} RepeatedEditCollapses(files: seq<FileModel>, batch: seq<EditModel>)
    requires |batch| >= 2 && batch[1] == batch[0]
    requires batch[0].action == ReplaceRegionAction
    requires '\n' !in batch[0].region
    requires !Contains(batch[0].content, EndTag(batch[0].region))
    requires forall i :: 0 <= i < |files| && files[i].name == batch[0].file ==> MarkersUsable(files[i].content, batch[0].region)
    ensures ApplyEdits(files, batch) == ApplyEdits(files, batch[1..])
  {
    ReplaceTwiceKeepsSecond(files, batch[0], batch[1]);
    assert batch[1..][0] == batch[1] && batch[1..][1..] == batch[2..];
  }

  /** Edits of different files are independent: their order does not matter. */
  lemma EditsOfDifferentFilesCommute(files: seq<FileModel>, e1: EditModel, e2: EditModel)
    requires e1.file != e2.file
    ensures ApplyEdit(ApplyEdit(files, e1), e2) == ApplyEdit(ApplyEdit(files, e2), e1)
  {
  }
}

=== FILE: results.dfy ===
/** Failure-compatible wrappers shared by the whole model: `Option` stands for
    the nullable values of the TypeScript and C# code, `Result` for a value or
    the error the source raises instead of it. */
module Results {

  datatype Option<+T> = None | Some(value: T) {

    /** The wrapped value, or `default` when there is none (`x ?? default`). */
    function GetOr(default: T): T {
      match this
      case Some(v) => v
      case None => default
    }
  }

  datatype Result<+R, +E> = Success(value: R) | Failure(error: E)
}

=== FILE: text.dfy ===
/** Substring search as the client and backend use it: JavaScript's
    `indexOf`/`includes` (first occurrence) and `String.prototype.replace`
    with a string pattern, including its `$`-substitution rules. */
module Text {
  import opened Results

  /** `t` occurs in `s` starting at index `i`. */
  predicate OccursAt(s: string, t: string, i: nat) {
    i + |t| <= |s| && s[i..i + |t|] == t
  }

  /** `s.includes(t)`. */
  ghost predicate Contains(s: string, t: string) {
    exists i: nat :: OccursAt(s, t, i)
  }

  /** `t` occurs at `i` and nowhere before `i`. */
  predicate FirstOccurrence(s: string, t: string, i: nat) {
    OccursAt(s, t, i) && forall j: nat :: j < i ==> !OccursAt(s, t, j)
  }

  /** First occurrence of `t` in `s` at or after `from`. */
  function IndexOfFrom(s: string, t: string, from: nat): (r: Option<nat>)
    requires from <= |s|
    ensures r.Some? ==> from <= r.value && OccursAt(s, t, r.value)
    ensures r.Some? ==> forall j: nat :: from <= j < r.value ==> !OccursAt(s, t, j)
    ensures r.None? ==> forall j: nat :: from <= j ==> !OccursAt(s, t, j)
    decreases |s| - from
  {
    if from + |t| > |s| then None
    else if s[from..from + |t|] == t then Some(from)
    else IndexOfFrom(s, t, from + 1)
  }

  /** `s.indexOf(t)`, with `None` for -1. */
  function IndexOf(s: string, t: string): (r: Option<nat>)
    ensures r.Some? <==> Contains(s, t)
    ensures r.Some? ==> FirstOccurrence(s, t, r.value)
  {
    IndexOfFrom(s, t, 0)
  }

  /** The first occurrence is the one `IndexOf` reports. */
  lemma IndexOfFirst(s: string, t: string, i: nat)
    requires FirstOccurrence(s, t, i)
    ensures IndexOf(s, t) == Some(i)
  {
    assert OccursAt(s, t, i);
  }

  /** A slice of a text occurs in it. */
  lemma SliceIsContained(s: string, i: nat, j: nat)
    requires i <= j <= |s|
    ensures Contains(s, s[i..j])
  {
    assert OccursAt(s, s[i..j], i);
  }

  /** An occurrence in a suffix is an occurrence in the whole text. */
  lemma OccursInSuffix(s: string, t: string, p: nat, i: nat)
    requires p <= |s| && OccursAt(s[p..], t, i)
    ensures OccursAt(s, t, p + i)
  {
    assert s[p..][i..i + |t|] == s[p + i..p + i + |t|];
  }

  /** Whether `t` occurs at `j` depends only on the characters it would cover. */
  lemma OccursAtSameWindow(s: string, s': string, t: string, j: nat, n: nat)
    requires j + |t| <= n <= |s| && n <= |s'|
    requires forall k :: 0 <= k < n ==> s'[k] == s[k]
    ensures OccursAt(s', t, j) <==> OccursAt(s, t, j)
  {
    assert s'[j..j + |t|] == s[j..j + |t|];
  }

  /** A first occurrence survives any change to the text after it: when `s'`
      agrees with `s` on the first `n` characters and the first occurrence of
      `t` in `s` ends within them, it is also the first occurrence in `s'`. */
  lemma {:induction false} IndexOfPrefixStable(s: string, s': string, t: string, n: nat)
    requires IndexOf(s, t).Some? && IndexOf(s, t).value + |t| <= n
    requires n <= |s| && n <= |s'| && s'[..n] == s[..n]
    ensures IndexOf(s', t) == IndexOf(s, t)
  {
    var i := IndexOf(s, t).value;
    assert forall k :: 0 <= k < n ==> s'[k] == s'[..n][k] == s[..n][k] == s[k];
    OccursAtSameWindow(s, s', t, i, n);
    forall j: nat | j < i
      ensures !OccursAt(s', t, j)
    {
      OccursAtSameWindow(s, s', t, j, n);
    }
    IndexOfFirst(s', t, i);
  }

  /** An occurrence of a newline-free `t` in `x + "\n" + y` lies wholly in
      `x` or wholly in `y`. */
  lemma {:induction false} OccurrenceAroundNewline(x: string, y: string, t: string, j: nat)
    requires '\n' !in t
    ensures OccursAt(x + "\n" + y, t, j) <==>
              (j + |t| <= |x| && OccursAt(x, t, j))
              || (|x| + 1 <= j && OccursAt(y, t, j - |x| - 1))
  {
    var z := x + "\n" + y;
    if j + |t| <= |x| {
      assert z[j..j + |t|] == x[j..j + |t|];
    } else if j <= |x| {
      if j + |t| <= |z| {
        assert z[j..j + |t|][|x| - j] == '\n';
      }
    } else if j + |t| <= |z| {
      assert z[j..j + |t|] == y[j - |x| - 1..j - |x| - 1 + |t|];
    }
  }

  /** Joining two texts free of a newline-free `t` by a newline creates no
      occurrence of `t`. */
  lemma NoOccurrenceAcrossNewline(x: string, y: string, t: string)
    requires '\n' !in t && !Contains(x, t) && !Contains(y, t)
    ensures !Contains(x + "\n" + y, t)
  {
    forall j: nat
      ensures !OccursAt(x + "\n" + y, t, j)
    {
      OccurrenceAroundNewline(x, y, t, j);
    }
  }

  /** Searching `x + "\n" + y` for a newline-free `t` that `x` lacks finds
      the first occurrence in `y`, shifted past `x` and the newline. */
  lemma IndexOfPastNewline(x: string, y: string, t: string, i: nat)
    requires '\n' !in t && !Contains(x, t)
    requires IndexOf(y, t) == Some(i)
    ensures IndexOf(x + "\n" + y, t) == Some(|x| + 1 + i)
  {
    var z := x + "\n" + y;
    assert FirstOccurrence(y, t, i);
    assert OccursAt(z, t, |x| + 1 + i) by {
      OccurrenceAroundNewline(x, y, t, |x| + 1 + i);
    }
    forall j: nat | j < |x| + 1 + i
      ensures !OccursAt(z, t, j)
    {
      OccurrenceAroundNewline(x, y, t, j);
      if |x| + 1 <= j {
        assert !OccursAt(y, t, j - |x| - 1);
      } else {
        assert !OccursAt(x, t, j);
      }
    }
    IndexOfFirst(z, t, |x| + 1 + i);
  }

  /** A prefix of a text free of `t` is free of `t`. */
  lemma NoOccurrenceInPrefix(s: string, t: string, k: nat)
    requires !Contains(s, t) && k <= |s|
    ensures !Contains(s[..k], t)
  {
    forall j: nat
      ensures !OccursAt(s[..k], t, j)
    {
      if j + |t| <= k {
        assert s[..k][j..j + |t|] == s[j..j + |t|];
        assert !OccursAt(s, t, j);
      }
    }
  }

  /** Inserting at `h`, at or before the first `t`, a block that ends with a
      newline and leaves no `t` before the insertion point moves the first
      `t` by the length of the block (a newline-free `t` cannot straddle the
      block's end). */
  lemma IndexOfAfterInsertion(s: string, h: nat, block: string, t: string, b: nat)
    requires IndexOf(s, t) == Some(b) && h <= b
    requires '\n' !in t && |block| > 0 && block[|block| - 1] == '\n'
    requires !Contains(s[..h] + block, t)
    ensures IndexOf(s[..h] + block + s[h..], t) == Some(b + |block|)
  {
    assert IndexOf(s[h..], t) == Some(b - h) by {
      IndexOfInSuffix(s, t, h);
    }
    IndexOfAfterBlock(s[..h], block, s[h..], t, b - h);
  }

  /** A newline-terminated block free of `t` (together with what precedes
      it) shifts the first occurrence of `t` in what follows. */
  lemma IndexOfAfterBlock(a: string, block: string, c: string, t: string, i: nat)
    requires '\n' !in t && |block| > 0 && block[|block| - 1] == '\n'
    requires !Contains(a + block, t)
    requires IndexOf(c, t) == Some(i)
    ensures IndexOf(a + block + c, t) == Some(|a| + |block| + i)
  {
    var x := a + block[..|block| - 1];
    assert x + "\n" + c == a + block + c && |x| + 1 == |a| + |block| by {
      SplitAtFinalNewline(a, block, c);
    }
    assert !Contains(x, t) by {
      DropLastIsPrefix(a, block);
      NoOccurrenceInPrefix(a + block, t, |x|);
    }
    IndexOfPastNewline(x, c, t, i);
  }

  /** Dropping the last character of `b` from `a + b` gives a prefix. */
  lemma DropLastIsPrefix(a: string, b: string)
    requires |b| > 0
    ensures a + b[..|b| - 1] == (a + b)[..|a| + |b| - 1]
  {
  }

  /** A block ending with a newline, spelled out around that newline. */
  lemma SplitAtFinalNewline(a: string, block: string, c: string)
    requires |block| > 0 && block[|block| - 1] == '\n'
    ensures a + block[..|block| - 1] + "\n" + c == a + block + c
    ensures |a + block[..|block| - 1]| + 1 == |a| + |block|
  {
    assert block == block[..|block| - 1] + "\n";
  }


  /** Dropping text before the first occurrence of `t` shifts it. */
  lemma {:induction false} IndexOfInSuffix(s: string, t: string, h: nat)
    requires IndexOf(s, t).Some? && h <= IndexOf(s, t).value
    ensures IndexOf(s[h..], t) == Some(IndexOf(s, t).value - h)
  {
    var b := IndexOf(s, t).value;
    assert OccursAt(s, t, b);
    assert s[h..][b - h..b - h + |t|] == s[b..b + |t|];
    forall j: nat | j < b - h
      ensures !OccursAt(s[h..], t, j)
    {
      if j + |t| <= |s| - h {
        assert s[h..][j..j + |t|] == s[h + j..h + j + |t|];
        assert !OccursAt(s, t, h + j);
      }
    }
    IndexOfFirst(s[h..], t, b - h);
  }

  /** Text before the first occurrence of `t` holds no occurrence of it. */
  lemma {:induction false} NoOccurrenceBeforeFirst(s: string, t: string, h: nat)
    requires |t| > 0 && h <= |s|
    requires IndexOf(s, t).Some? ==> h <= IndexOf(s, t).value
    ensures !Contains(s[..h], t)
  {
    forall j: nat
      ensures !OccursAt(s[..h], t, j)
    {
      if j + |t| <= h {
        assert s[..h][j..j + |t|] == s[j..j + |t|];
        if IndexOf(s, t).Some? {
          assert j < IndexOf(s, t).value;
        }
        assert !OccursAt(s, t, j);
      }
    }
  }

  /** Two texts free of `t` whose join starts with a character `t` has only
      at its start hold no occurrence of `t` across the join either. */
  lemma {:induction false} NoOccurrenceAcrossMark(x: string, y: string, t: string)
    requires !Contains(x, t) && !Contains(y, t)
    requires |y| > 0 && |t| > 0 && t[0] == y[0] && y[0] !in t[1..]
    ensures !Contains(x + y, t)
  {
    forall j: nat
      ensures !OccursAt(x + y, t, j)
    {
      if j + |t| <= |x| {
        assert (x + y)[j..j + |t|] == x[j..j + |t|];
        assert !OccursAt(x, t, j);
      } else if j < |x| {
        if j + |t| <= |x + y| {
          assert (x + y)[j..j + |t|][|x| - j] == y[0];
          assert t[1..][|x| - j - 1] == t[|x| - j];
        }
      } else if j + |t| <= |x + y| {
        assert (x + y)[j..j + |t|] == y[j - |x|..j - |x| + |t|];
        assert !OccursAt(y, t, j - |x|);
      }
    }
  }

  /** The replacement text JavaScript builds from `template` when a string
      pattern matched `matched`, with `before`/`after` the text on either side
      of the match (GetSubstitution, section 22.1.3.19.1 of ECMAScript 2024,
      for a pattern with no capture groups): `$$` gives `$`, `$&` the match,
      `` $` `` the text before it, `$'` the text after it; any other `$`
      (including `$1`..`$99` and `$<`) stands for itself. */
  function ExpandReplacement(template: string, matched: string, before: string, after: string): string
    decreases |template|
  {
    if |template| == 0 then ""
    else if template[0] == '$' && |template| >= 2 && template[1] == '$' then
      "$" + ExpandReplacement(template[2..], matched, before, after)
    else if template[0] == '$' && |template| >= 2 && template[1] == '&' then
      matched + ExpandReplacement(template[2..], matched, before, after)
    else if template[0] == '$' && |template| >= 2 && template[1] == '`' then
      before + ExpandReplacement(template[2..], matched, before, after)
    else if template[0] == '$' && |template| >= 2 && template[1] == '\'' then
      after + ExpandReplacement(template[2..], matched, before, after)
    else
      [template[0]] + ExpandReplacement(template[1..], matched, before, after)
  }

  /** A template without `$` is inserted verbatim. */
  lemma {:induction false} ExpandWithoutDollar(template: string, matched: string, before: string, after: string)
    requires '$' !in template
    ensures ExpandReplacement(template, matched, before, after) == template
    decreases |template|
  {
    if |template| > 0 {
      assert '$' !in template[1..];
      ExpandWithoutDollar(template[1..], matched, before, after);
      assert template == [template[0]] + template[1..];
    }
  }

  /** A `$`-free start of a template is copied unchanged and the rest
      expands on its own. */
  lemma {:induction false} ExpandAfterDollarFreePrefix(prefix: string, rest: string, matched: string, before: string, after: string)
    requires '$' !in prefix
    ensures ExpandReplacement(prefix + rest, matched, before, after)
         == prefix + ExpandReplacement(rest, matched, before, after)
    decreases |prefix|
  {
    if |prefix| > 0 {
      assert (prefix + rest)[0] == prefix[0];
      assert (prefix + rest)[1..] == prefix[1..] + rest;
      assert '$' !in prefix[1..];
      ExpandAfterDollarFreePrefix(prefix[1..], rest, matched, before, after);
      assert prefix == [prefix[0]] + prefix[1..];
    } else {
      assert prefix + rest == rest;
    }
  }

  /** `$'` expands to the text after the match. */
  lemma ExpandDollarQuote(rest: string, matched: string, before: string, after: string)
    ensures ExpandReplacement("$'" + rest, matched, before, after)
         == after + ExpandReplacement(rest, matched, before, after)
  {
    assert ("$'" + rest)[2..] == rest;
  }

  /** A template whose only `$` opens one `$'` expands to the template with
      the text after the match in place of the `$'`. */
  lemma ExpandSingleDollarQuote(opening: string, closing: string, matched: string, before: string, after: string)
    requires '$' !in opening && '$' !in closing
    ensures ExpandReplacement(opening + "$'" + closing, matched, before, after) == opening + after + closing
  {
    assert opening + "$'" + closing == opening + ("$'" + closing);
    ExpandAfterDollarFreePrefix(opening, "$'" + closing, matched, before, after);
    ExpandDollarQuote(closing, matched, before, after);
    ExpandWithoutDollar(closing, matched, before, after);
  }

  /** `s.replace(pattern, template)` for a string `pattern`: only the first
      occurrence is replaced, and `template` is expanded. */
  function JsReplace(s: string, pattern: string, template: string): string
  {
    match IndexOf(s, pattern)
    case None => s
    case Some(i) =>
      s[..i] + ExpandReplacement(template, pattern, s[..i], s[i + |pattern|..]) + s[i + |pattern|..]
  }
}
